=== FILE: README.md ===
# Barbershop booking app: a verified model of its core

The app is a single-page barbershop site. Customers pick a date and a
half-hour slot in a calendar and leave their name and mobile number. The
owner can replace the service catalog by uploading a Word document. A chat
assistant receives a prompt that describes the catalog and the day's
bookings. This project models that core in Dafny and proves what it does:

- `types.dfy` (module `Types`): the `Service` and `Appointment` records
  (`types.ts`), and `Option` / `Result`.
- `seqs.dfy` (`Seqs`) and `text.dfy` (`Text`): the JavaScript built-ins the
  core relies on, written out with their contracts. These are `filter`,
  `slice(0, n)`, `trim` (over the ECMAScript whitespace set), ASCII
  `toLowerCase`, `includes`, `split` on one character, `join`, and
  `toString` / `padStart(2, '0')` of a small number.
- `app_state.dfy` (`AppState`): the top-level component's two pieces of
  state, the catalog and the appointment book. It is a class: the
  constructor picks the saved state or the defaults, `AddAppointment`
  appends, and `SetServices` replaces.
- `calendar.dfy` (`Calendar`): the slot generator, as a loop proved
  against a recursive specification, with its count, its order and its
  labels proved. Also the "is this slot taken" test, the booking
  handler, and the calendar screen as a class over the booking form.
- `importer.dfy` (`Importer`): the document importer. It has a table path
  (header skip, rows with at least two cells, defaults for missing
  cells), a plain-text fallback (the first five non-blank lines, the name
  before the first `-` or `:`, and a price pattern), and one fixed error
  for an unreadable file.
- `catalog.dfy` (`Catalog`): the services screen's upload handler, both as
  a state transition and as a class that writes through `AppState.App`.
- `assistant.dfy` (`Assistant`): the assistant's prompt (the service
  lines, today's booking lines, the placeholder when there are none, and
  the instruction template) and the two fixed fallback replies.

Time, randomness, storage and the document converter are modelled as
parameters:

- The current date is a string argument.
- Fresh ids are a function `ids: nat -> string`: the k-th service an
  import produces gets `ids(k)`, and a booking receives its id as an
  argument.
- The converter's output is a `Conversion`. It is either `Unreadable` or a
  `Document`, which is a table of rows (each row with its text and cells)
  or plain text.
- The currency symbol of the price pattern is a parameter `symbol`; see
  "## Findings".

Three behaviours of the code that a reader might not expect, and that the
model keeps:

- The booking handler has no slot-conflict check. `components/CalendarView.tsx:32-49`
  builds and stores the appointment whatever the book holds.
  `Calendar.BookIgnoresConflicts` and `Calendar.StaleSlotDoubleBooks`
  prove that a slot can be booked twice.
- In the text fallback, a line without `-` or `:` is named by the whole
  trimmed line (`services/docxService.ts:55`). The default name is used
  only when that part trims to nothing.
- Business hours are any natural numbers. The code loops
  `start <= h < end` and makes no slots when `end <= start`. Nothing
  requires `start < end`. The shop's own hours come from `BUSINESS_HOURS`
  in `constants.ts`, which is not part of this model. The examples use 9
  and 19, the hours the assistant's instruction names
  (`services/geminiService.ts:37`).

## Model

| member | source | states |
|---|---|---|
| `Calendar.SlotLabel` | components/CalendarView.tsx:24-25 | for an hour below 100, the label is exactly five characters: the two digits of the hour, ':', then "30" for the half hour and "00" otherwise |
| `Calendar.Slots` | components/CalendarView.tsx:21-28 | the specification of the slot loop: two labels per business hour, so always an even number of them |
| `Calendar.GenerateSlots` | components/CalendarView.tsx:21-28 | the loop returns exactly the slot list `Slots(start, end)`, an `HH:00` and an `HH:30` label for each hour `start <= h < end` |
| `Calendar.SlotsLength` | components/CalendarView.tsx:23-26 | there are 2·(end − start) slots when start < end, and none otherwise |
| `Calendar.SlotsAt` | components/CalendarView.tsx:23-26 | slot 2k is hour start+k on the hour, slot 2k+1 is its half hour |
| `Calendar.SlotsIndex` | components/CalendarView.tsx:23-26 | every slot i belongs to hour start + i/2, and it is the half-hour slot exactly when i is odd |
| `Calendar.SlotLabelOrder` | components/CalendarView.tsx:24-25 | for hours below 100, the zero-padded label of an earlier half hour is lexicographically smaller |
| `Calendar.SlotsOrderedPair` | components/CalendarView.tsx:21-28 | for hours below 100, two slots compare in the order of their positions |
| `Calendar.SlotsAscending` | components/CalendarView.tsx:21-28 | with two-digit hours the slot list is strictly ascending as strings |
| `Calendar.SlotsDistinct` | components/CalendarView.tsx:21-28 | for hours below 100, no slot label occurs twice |
| `Calendar.NineToSeven` | components/CalendarView.tsx:23-26 | hours 9 to 19 give twenty slots, from "09:00" to "18:30" |
| `Calendar.TenOClock` | components/CalendarView.tsx:23-26 | "10:00" is a slot of hours 9 to 19 |
| `Calendar.IsSlotBooked` | components/CalendarView.tsx:59-61 | true exactly when some appointment has both the given date and the given time |
| `Calendar.FindService` | components/CalendarView.tsx:38 | the first service with the id, or None exactly when no service has it |
| `Calendar.ServiceName` | components/CalendarView.tsx:38-44 | never empty; the first matching service's name, or "Service" when there is no match or its name is empty |
| `Calendar.Book` | components/CalendarView.tsx:32-47 | no appointment exactly when the time, name, number or service id is missing or empty; otherwise every field comes from the form, the id is the fresh one and the name follows `ServiceName` |
| `Calendar.ConfirmGuardWeaker` | components/CalendarView.tsx:168-170 | whatever the confirm button refuses, the handler (line 33) refuses too; the handler accepts exactly when the button is enabled and a service id is set |
| `Calendar.BookIgnoresConflicts` | components/CalendarView.tsx:32-49 | booking a slot that is already taken succeeds, and the book then holds two appointments with the same date and time |
| `Calendar.CalendarView.constructor` | components/CalendarView.tsx:13-18 | the screen opens on today's date, with no slot, the first service (or the empty id), empty name and number, and no confirmation shown |
| `Calendar.CalendarView.SetDate` | components/CalendarView.tsx:87 | only the date changes; the chosen slot is kept |
| `Calendar.CalendarView.SetServiceId` | components/CalendarView.tsx:126 | only the service id changes |
| `Calendar.CalendarView.SetCustomerName` | components/CalendarView.tsx:141 | only the name changes |
| `Calendar.CalendarView.SetMobileNumber` | components/CalendarView.tsx:152 | only the number changes |
| `Calendar.CalendarView.ClickSlot` | components/CalendarView.tsx:93-100 | a click on a booked slot (its button is disabled) changes nothing; a click on a free slot selects it and changes nothing else |
| `Calendar.CalendarView.HandleBook` | components/CalendarView.tsx:32-50 | with a missing field the book is unchanged and no confirmation is shown; otherwise exactly the built appointment is appended and the confirmation is shown; the form and the catalog are unchanged |
| `Calendar.CalendarView.ResetAfterConfirmation` | components/CalendarView.tsx:51-56 | the confirmation is hidden and the slot, name and number are cleared; the date and service are kept |
| `Calendar.StaleSlotScenario` | components/CalendarView.tsx:83-100 | for any screen and book: a slot chosen on a date where it is free stays chosen when the date changes to one where it is taken, and confirming leaves two appointments in the same slot |
| `Calendar.SingleBooking` | components/CalendarView.tsx:59-61 | a book with one appointment has exactly that appointment's date and time taken |
| `Calendar.StaleSlotDoubleBooks` | components/CalendarView.tsx:83-100 | the scenario on hours 9 to 19: "10:00" is chosen on a free day, the date moves to a day where it is taken, and the book ends with two appointments in that slot |
| `AppState.InitialCatalog` | App.tsx:11-15 | the default catalog has three services with the distinct ids "1", "2", "3" |
| `AppState.App.constructor` | App.tsx:19-26 | the saved catalog and book when present, otherwise the default catalog and an empty book |
| `AppState.App.AddAppointment` | App.tsx:36-38 | the book becomes the old book with the new appointment appended; nothing is checked or reordered; the catalog is unchanged |
| `AppState.App.SetServices` | App.tsx:19-22 | the catalog is replaced; the book is unchanged |
| `Importer.StartIndex` | services/docxService.ts:28 | data rows start at 1 exactly when there is a first row whose lower-cased text contains "service", and at 0 otherwise |
| `Importer.CellOr` | services/docxService.ts:37-38 | the trimmed cell when the row has it and it trims to something, otherwise the default; never empty, never surrounded by whitespace |
| `Importer.RowService` | services/docxService.ts:33-39 | the service of a data row carries the given id, and its price and duration are never empty |
| `Importer.RowServices` | services/docxService.ts:30-41 | one service per kept row |
| `Importer.TableServices` | services/docxService.ts:24-43 | the specification of the row loop: the j-th service gets the j-th fresh id, in push order |
| `Importer.ParseTable` | services/docxService.ts:24-43 | the row loop returns exactly `TableServices`: one service per data row with at least two cells, in row order |
| `Importer.TableServicesShape` | services/docxService.ts:30-41 | never more services than data rows; exactly one per data row when every data row has two cells |
| `Importer.TableRowKept` | services/docxService.ts:30-32 | a row yields a service exactly when it is a data row with at least two cells |
| `Importer.ShortRowIgnored` | services/docxService.ts:31-32 | removing a row with fewer than two cells (after the first) changes no imported service |
| `Importer.TableServicesClean` | services/docxService.ts:35-38 | every imported service has trimmed fields, a non-empty price and a non-empty duration |
| `Importer.RowOfCellsParses` | services/docxService.ts:33-39 | for a clean service (fields trimmed, price and duration present and non-empty), a row written from its four cells imports as that service with the new id |
| `Importer.TableRoundTrip` | services/docxService.ts:24-43 | a header row followed by one row per service imports back the same catalog in the same order, only the ids replaced |
| `Importer.NonBlankLines` | services/docxService.ts:52 | never more kept lines than pieces of splitting on line breaks |
| `Importer.NotBlankIsTrimNonEmpty` | services/docxService.ts:52 | a line is kept exactly when its trimmed length is positive |
| `Importer.NonBlankLinesSpec` | services/docxService.ts:52 | the kept lines are exactly the non-blank pieces of splitting on line breaks, and none holds a line break |
| `Importer.NamePart` | services/docxService.ts:55 | the text before the first `-` or `:`: a prefix of the line with neither, followed by one of them or by the end |
| `Importer.NamePartBefore` | services/docxService.ts:55 | for a line `name-rest` or `name:rest` whose name has neither separator, the name part is that name |
| `Importer.LineName` | services/docxService.ts:55 | the trimmed name part, or "Service" when that is empty; never empty, trimmed, free of separators |
| `Importer.DigitRunEnd` | services/docxService.ts:57 | `\d+` is greedy: the run ends at the end of the line or before a non-digit |
| `Importer.MatchAt` | services/docxService.ts:57 | a match at p exists exactly when the literal is there and is followed by a digit, or by the optional character and a digit; the match is the literal, then the optional character or a digit, then digits only, and it ends where the digit run ends |
| `Importer.FirstMatch` | services/docxService.ts:57 | the leftmost match: no match starts earlier, and None exactly when no position matches |
| `Importer.MatchText` | services/docxService.ts:57 | the text of a match occurs in the line and is the literal, then the optional character or a digit, then digits only, ending in a digit |
| `Importer.PriceIn` | services/docxService.ts:57 | "Call for price" exactly when no position matches; otherwise the text of the leftmost match, from its start to the end of its run of digits, made of the literal, at most one optional character, then digits |
| `Importer.FallbackPrice` | services/docxService.ts:57 | with the intended pattern, a line gets "Call for price" exactly when it holds no digit |
| `Importer.FallbackPriceIsFirstRun` | services/docxService.ts:57 | with the intended pattern, the price is the line's first run of digits, with the currency symbol in front when the symbol stands just before that run |
| `Importer.FallbackPriceAsWritten` | services/docxService.ts:57 | with the pattern as written, every price found occurs in the line and begins with the two characters U+00E2 U+201A |
| `Importer.TextLineServices` | services/docxService.ts:53-58 | one service per line, in line order, each the service made from that line with the id of its position |
| `Importer.LineService` | services/docxService.ts:53-58 | the name of a fallback service is never empty, trimmed and free of `-` and `:` |
| `Importer.TextServices` | services/docxService.ts:50-59 | at most five services and at most one per non-blank line, each with a non-empty trimmed name free of `-` and `:` |
| `Importer.TextServicesShape` | services/docxService.ts:50-58 | min(5, non-blank lines) services; the k-th is named from the k-th non-blank line, with the fixed description, the pattern's price and no duration |
| `Importer.ImportServices` | services/docxService.ts:7-48 | fails exactly when the file cannot be read, and always with the fixed message; a table gives at most one service per data row, plain text at most five |
| `Importer.ParseDocxServices` | services/docxService.ts:7-48 | the entry point returns exactly `ImportServices` |
| `Importer.AsWrittenNeedsGarbledPrefix` | services/docxService.ts:57 | with the pattern as written, a line without the character U+00E2 never has a price |
| `Importer.AsWrittenMissesPrices` | services/docxService.ts:57 | "Haircut 300" and "Haircut ₹300" get "Call for price" as written, and a price with the intended pattern |
| `Catalog.OutcomeOf` | components/ServiceList.tsx:24-27 | a successful import is awaited as its list; a failed import reaches the catch as a thrown Error with the importer's message, never as another thrown value |
| `Catalog.Begin` | components/ServiceList.tsx:20-21 | the upload is running and the error is cleared; the catalog is kept |
| `Catalog.Finish` | components/ServiceList.tsx:23-29 | the upload stops; a parsed list replaces the catalog and leaves the error as it was; a thrown Error keeps the catalog and shows its message; anything else thrown shows "Failed to parse file" |
| `Catalog.HandleUpload` | components/ServiceList.tsx:16-33 | without a file nothing changes; otherwise the upload ends not running; a successful import replaces the catalog and leaves no error; an unreadable file keeps the catalog and shows the importer's message |
| `Catalog.NoOtherThrow` | components/ServiceList.tsx:27 | the importer only fails with an Error that carries the fixed message, so "Failed to parse file" is never shown |
| `Catalog.ServiceListView.constructor` | components/ServiceList.tsx:13-14 | not uploading and no error |
| `Catalog.ServiceListView.BeginUpload` | components/ServiceList.tsx:20-21 | uploading, error cleared |
| `Catalog.ServiceListView.FinishUpload` | components/ServiceList.tsx:24-29 | commits the list or records the message (or the generic one), then stops uploading; the book is unchanged |
| `Catalog.ServiceListView.HandleFileUpload` | components/ServiceList.tsx:16-33 | the screen and the catalog end as `HandleUpload` says; the appointment book is unchanged |
| `Assistant.ServicesContext` | services/geminiService.ts:18 | for a non-empty catalog, the context opens with the first service's line |
| `Assistant.TodaysBookings` | services/geminiService.ts:19-20 | no more bookings than appointments, each on the current date |
| `Assistant.BookingsContext` | services/geminiService.ts:19-22 | when some booking is on the date, the context opens with the first such booking's line |
| `Assistant.SystemInstruction` | services/geminiService.ts:24-42 | the instruction opens with the assistant's introduction and the line naming the date, and ends with the list of goals |
| `Assistant.ServiceLines` | services/geminiService.ts:18 | one line `- name: description (price)` per service, in catalog order |
| `Assistant.ServicesContextLines` | services/geminiService.ts:18 | for a non-empty catalog with fields free of line breaks, the services context splits back into exactly those lines |
| `Assistant.ServicesContextEmpty` | services/geminiService.ts:18 | the services context is empty exactly when the catalog is |
| `Assistant.TodaysBookingsExact` | services/geminiService.ts:19-20 | the day's bookings are exactly the appointments on the current date |
| `Assistant.BookingLines` | services/geminiService.ts:21 | one line `- time is BOOKED for serviceName` per booking, in order |
| `Assistant.BookingsContextLines` | services/geminiService.ts:19-22 | when some booking is on the date and no time or name holds a line break, the context splits back into exactly one line per booking on the date, in booking order |
| `Assistant.BookingsContextEmpty` | services/geminiService.ts:19-22 | the bookings context is empty exactly when no appointment is on the date, and never reads as the placeholder |
| `Assistant.BookingsSection` | services/geminiService.ts:32 | "No bookings yet today." exactly when no appointment is on the date, the bookings context otherwise |
| `Assistant.InstructionCarriesContexts` | services/geminiService.ts:24-32 | the instruction contains the line naming the date, the services context and the bookings section |
| `Assistant.InstructionListsEveryService` | services/geminiService.ts:18-29 | every service's line occurs in the instruction |
| `Assistant.InstructionListsTodaysBookings` | services/geminiService.ts:19-32 | every booking on the date occurs in the instruction as taken |
| `Assistant.Reply` | services/geminiService.ts:44-57 | the model's text when there is some, the "trouble connecting" apology for an empty or missing text, the "Something went wrong" apology for a failed call; never empty |
| `Seqs.Filter` | services/docxService.ts:52 | never longer than the input, and every kept element satisfies the predicate |
| `Seqs.Take` | services/docxService.ts:53 | `slice(0, n)`: the first min(n, length) elements, unchanged |
| `Text.Pad2` | components/CalendarView.tsx:24-25 | at least two characters; for a number below 100, its tens digit and its units digit |
| `Text.Contains` | services/docxService.ts:28 | a prefix is contained, and whatever is contained is no longer than the text |
| `Text.ContainsIffOccurs` | services/docxService.ts:28 | `includes` holds exactly when the piece occurs at some index of the text |
| `Text.NatToString` | components/CalendarView.tsx:24 | `hour.toString()`: a non-empty string of decimal digits, a single digit exactly for numbers below ten |
| `Text.NatToStringValue` | components/CalendarView.tsx:24 | the digits of `hour.toString()` read back as the hour, with no leading zero except for zero itself |
| `Text.ToLowerAscii` | services/docxService.ts:28 | the same length, each character lower-cased |
| `Text.Split` | services/docxService.ts:52 | at least one piece, and no piece holds the separator |
| `Text.Join` | services/geminiService.ts:18 | no parts give the empty string; otherwise the join begins with the first part |
| `Text.Trim` | services/docxService.ts:35-38 | the part between the leading and trailing whitespace, which neither starts nor ends with whitespace |
| `Text.TrimIdempotent` | services/docxService.ts:35-38 | trimming twice is trimming once |
| `Text.JoinSplit` | services/docxService.ts:52 | joining the pieces of a split on a character with that character restores the text |
| `Text.SplitJoin` | services/geminiService.ts:18 | for at least one piece, pieces free of the separator come back unchanged from splitting their join |

## Left out

- Browser storage: `AppState.App.constructor` receives the saved values, which would be JSON, already decoded; writing them back (App.tsx:28-34) is not modelled.
- The document converter, HTML parsing and `innerText` (services/docxService.ts:9-20, 31) are not modelled: a `Conversion` stands for their output. Any exception they raise is the `Unreadable` case.
- `Math.random` ids: they are an `ids` parameter, and nothing is proved about their uniqueness.
- Time: the current date is a parameter; the 3-second delay before `ResetAfterConfirmation` runs, and what happens in between, are not modelled.
- The date input's `min` attribute (components/CalendarView.tsx:85) is browser behaviour; the code itself never rejects past dates, and the model has no such check either.
- `alert`, `console.error`, clearing the file input (components/ServiceList.tsx:31) and all rendering are not modelled.
- The call to the language model (its model name, temperature and transport) is left out: `Assistant.Reply` receives its outcome.
- `Text.ToLowerAscii` lower-cases ASCII letters only; JavaScript's `toLowerCase` also maps other scripts. That is enough for the "service" header test, which only looks for ASCII letters.
- Dafny characters are Unicode scalar values, while JavaScript strings are UTF-16 code units. Every character these files use lies in the Basic Multilingual Plane, where the two agree.
- The instruction text keeps the currency symbol exactly as the source file's bytes decode (`Assistant.GARBLED_RUPEE`), because it is prose sent to the model, not logic.
- Assistant.BookingsContextLines: the line structure is proved only for bookings on the date whose time and name hold no line break; such a field makes extra lines.
- Importer.ImportServices: the import prices fallback lines with the intended pattern (an optional currency symbol, then digits); the pattern as the source file spells it is modelled only by `Importer.FallbackPriceAsWritten` and the two lemmas about it.
- Calendar.SlotsAscending: ordering is proved only for hours below 100, where `padStart(2, '0')` gives two digits.
- Assistant.ServicesContextLines: the line structure is proved only for a non-empty catalog whose fields hold no line break; a field with a line break makes extra lines, and an empty catalog gives the empty context, which splits into one empty line (its emptiness is stated by `Assistant.ServicesContextEmpty`).
- Importer.TableRoundTrip: proved for catalogs whose fields are already trimmed and whose price and duration are non-empty; other catalogs come back normalised.

## Findings

| source | as written | input that shows it | evidently intended | confidence | as-written member | corrected member |
|---|---|---|---|---|---|---|
| services/docxService.ts:57 | the pattern `â‚¹?\d+` holds the rupee sign's UTF-8 bytes read as Windows-1252, so a match needs the two characters U+00E2 U+201A before the digits | "Haircut 300" and "Haircut ₹300" both get "Call for price" | `₹?\d+`: the first run of digits, with the rupee sign in front when there is one | not executed | `Importer.AsWrittenMissesPrices` | `Importer.FallbackPriceIsFirstRun` |

=== FILE: app_state.dfy ===
/**
 * The application's two pieces of state, the service catalog and the
 * appointment book, as the top-level component holds them.  Loading and
 * saving through the browser's storage is outside the model: the
 * constructor receives what was loaded, if anything.
 */
module AppState {
  import opened Types

  /** The catalog used when nothing has been saved yet. */
  const INITIAL_SERVICES: seq<Service> := [
    Service("1", "Classic Haircut", "Traditional cut with hot towel finish.", "\U{20B9}350", Some("45 min")),
    Service("2", "Beard Grooming", "Trimming, shaping and beard oil application.", "\U{20B9}200", Some("30 min")),
    Service("3", "Royal Combo", "Full haircut and beard styling.", "\U{20B9}500", Some("75 min"))
  ]

  /** The ids of a catalog are pairwise different. */
  predicate DistinctIds(services: seq<Service>) {
    forall i, j :: 0 <= i < j < |services| ==> services[i].id != services[j].id
  }

  /** The default catalog holds three services with the distinct ids "1", "2" and "3". */
  lemma InitialCatalog()
    ensures |INITIAL_SERVICES| == 3
    ensures INITIAL_SERVICES[0].id == "1" && INITIAL_SERVICES[1].id == "2" && INITIAL_SERVICES[2].id == "3"
    ensures DistinctIds(INITIAL_SERVICES)
  {
  }

  class App {
    var services: seq<Service>
    var appointments: seq<Appointment>

    /**
     * The initial state: what was saved, or the default catalog and an
     * empty appointment book when nothing was.
     */
    constructor(savedServices: Option<seq<Service>>, savedAppointments: Option<seq<Appointment>>)
      ensures savedServices.None? ==> services == INITIAL_SERVICES
      ensures savedServices.Some? ==> services == savedServices.value
      ensures savedAppointments.None? ==> appointments == []
      ensures savedAppointments.Some? ==> appointments == savedAppointments.value
    {
      services := if savedServices.Some? then savedServices.value else INITIAL_SERVICES;
      appointments := if savedAppointments.Some? then savedAppointments.value else [];
    }

    /**
     * Append a booking to the book.  Nothing is checked: the new entry is
     * added even when another one has the same date and time.
     */
    method AddAppointment(newApp: Appointment)
      modifies this
      ensures appointments == old(appointments) + [newApp]
      ensures |appointments| == |old(appointments)| + 1
      ensures appointments[..|old(appointments)|] == old(appointments)
      ensures services == old(services)
    {
      appointments := appointments + [newApp];
    }

    /** Replace the whole catalog. */
    method SetServices(newServices: seq<Service>)
      modifies this
      ensures services == newServices
      ensures appointments == old(appointments)
    {
      services := newServices;
    }
  }
}

=== FILE: assistant.dfy ===
/**
 * The chat assistant's prompt: one line per catalog service, one line per
 * booking on the current date, both spliced into a fixed instruction
 * text, and the two fixed replies that stand in for a missing answer.
 * The call to the language model is outside the model: its outcome is a
 * parameter.
 */
module Assistant {
  import opened Types
  import opened Text
  import opened Seqs

  /** The catalog as the assistant sees it: `- name: description (price)`. */
  function ServiceLine(s: Service): (r: string) {
    "- " + s.name + ": " + s.description + " (" + s.price + ")"
  }

  function ServiceLines(services: seq<Service>): (r: seq<string>)
    ensures |r| == |services|
    ensures forall i :: 0 <= i < |r| ==> r[i] == ServiceLine(services[i])
  {
    seq(|services|, i requires 0 <= i < |services| => ServiceLine(services[i]))
  }

  /** All service lines, in catalog order, separated by line breaks. */
  function ServicesContext(services: seq<Service>): (r: string)
    ensures services != [] ==> ServiceLine(services[0]) <= r
  {
    Join(ServiceLines(services), "\n")
  }

  /** Does the booking fall on the given date? */
  function OnDate(date: string): Appointment -> bool {
    (a: Appointment) => a.date == date
  }

  /** The bookings for the given date, in the order they were made. */
  function TodaysBookings(appointments: seq<Appointment>, date: string): (r: seq<Appointment>)
    ensures |r| <= |appointments|
    ensures forall i :: 0 <= i < |r| ==> r[i].date == date
  {
    var r := Filter(appointments, OnDate(date));
    assert forall i :: 0 <= i < |r| ==> OnDate(date)(r[i]);
    r
  }

  /** Exactly the bookings on the date are kept. */
  lemma TodaysBookingsExact(appointments: seq<Appointment>, date: string)
    ensures forall a :: a in TodaysBookings(appointments, date) <==> a in appointments && a.date == date
  {
    forall a
      ensures a in TodaysBookings(appointments, date) <==> a in appointments && a.date == date
    {
      FilterMembership(appointments, OnDate(date), a);
    }
  }

  /** One booking as the assistant sees it: `- time is BOOKED for serviceName`. */
  function BookingLine(a: Appointment): string {
    "- " + a.time + " is BOOKED for " + a.serviceName
  }

  function BookingLines(appointments: seq<Appointment>): (r: seq<string>)
    ensures |r| == |appointments|
    ensures forall i :: 0 <= i < |r| ==> r[i] == BookingLine(appointments[i])
  {
    seq(|appointments|, i requires 0 <= i < |appointments| => BookingLine(appointments[i]))
  }

  /** The lines of the day's bookings, separated by line breaks. */
  function BookingsContext(appointments: seq<Appointment>, date: string): (r: string)
    ensures TodaysBookings(appointments, date) != [] ==> BookingLine(TodaysBookings(appointments, date)[0]) <= r
  {
    Join(BookingLines(TodaysBookings(appointments, date)), "\n")
  }

  /** Stands in for the bookings when there are none on the date. */
  const NO_BOOKINGS := "No bookings yet today."

  /** A join of lines that all start with "- " is empty only when there are no lines. */
  lemma DashedJoinEmpty(lines: seq<string>)
    requires forall i :: 0 <= i < |lines| ==> "- " <= lines[i]
    ensures Join(lines, "\n") == "" <==> lines == []
  {
    if lines != [] {
      assert |lines[0]| >= 2;
    }
  }

  /**
   * `bookingsContext || "No bookings yet today."`: the placeholder exactly
   * when no booking falls on the date, the bookings' lines otherwise.
   */
  function BookingsSection(appointments: seq<Appointment>, date: string): (r: string)
    ensures r == NO_BOOKINGS <==> forall a :: a in appointments ==> a.date != date
    ensures r != NO_BOOKINGS ==> r == BookingsContext(appointments, date)
  {
    var context := BookingsContext(appointments, date);
    BookingsContextEmpty(appointments, date);
    if context == "" then NO_BOOKINGS else context
  }

  /**
   * The bookings context is empty exactly when no booking falls on the
   * date, and it is never the placeholder text.
   */
  lemma BookingsContextEmpty(appointments: seq<Appointment>, date: string)
    ensures BookingsContext(appointments, date) == "" <==> forall a :: a in appointments ==> a.date != date
    ensures BookingsContext(appointments, date) != NO_BOOKINGS
  {
    var today := TodaysBookings(appointments, date);
    var lines := BookingLines(today);
    var context := BookingsContext(appointments, date);
    TodaysBookingsExact(appointments, date);
    forall i | 0 <= i < |lines|
      ensures "- " <= lines[i]
    {
      assert lines[i][..2] == "- ";
    }
    DashedJoinEmpty(lines);
    if today != [] {
      assert context[0] == '-';
      assert today[0] in today;
    }
  }

  /**
   * The currency symbol of the instruction text, as the file's bytes
   * decode: the three characters that the UTF-8 encoding of U+20B9 (the
   * rupee sign) becomes when read as Windows-1252.
   */
  const GARBLED_RUPEE := "\U{E2}\U{201A}\U{B9}"

  /** The instruction text before the date line. */
  const INTRO := "\n      You are \"BarberFlow Assistant\", a premium barbershop concierge.\n      "

  /** The line that names the current date. */
  function DateLine(date: string): string {
    "Today's date is " + date + "."
  }

  /** Between the date line and the services. */
  const SERVICES_HEADING := "\n      \n      Our Services:\n      "

  /** Between the services and the bookings. */
  const BOOKINGS_HEADING := "\n\n      Current Bookings for Today:\n      "

  /** The rest of the instruction text. */
  const GOALS := "\n\n      Your goal:\n"
    + "      1. Greet the customer politely.\n"
    + "      2. Recommend services based on their needs.\n"
    + "      3. Check availability for slots between 09:00 and 19:00 (every 30 mins).\n"
    + "      4. DO NOT book a slot that is already booked.\n"
    + "      5. If they want to book, tell them to use the \"Calendar\" tab or ask for their Name and Mobile Number to \"tentatively\" confirm.\n"
    + "      6. Keep responses elegant, brief, and professional.\n"
    + "      7. Use Currency Symbol (" + GARBLED_RUPEE + ") if mentioned in service list.\n"
    + "    "

  /** The system instruction sent with every message: the template with its three holes filled. */
  function SystemInstruction(services: seq<Service>, appointments: seq<Appointment>, date: string): (r: string)
    ensures INTRO + DateLine(date) <= r
    ensures |r| >= |GOALS| && r[|r| - |GOALS|..] == GOALS
  {
    OpensAndCloses(INTRO, DateLine(date), SERVICES_HEADING, ServicesContext(services),
      BOOKINGS_HEADING, BookingsSection(appointments, date), GOALS);
    INTRO + DateLine(date) + SERVICES_HEADING + ServicesContext(services)
      + BOOKINGS_HEADING + BookingsSection(appointments, date) + GOALS
  }

  /** Seven concatenated strings begin with the first two and end with the last. */
  lemma OpensAndCloses(a: string, b: string, c: string, d: string, e: string, f: string, g: string)
    ensures a + b <= a + b + c + d + e + f + g
    ensures |a + b + c + d + e + f + g| >= |g| && (a + b + c + d + e + f + g)[|a + b + c + d + e + f + g| - |g|..] == g
  {
    var w := a + b + c + d + e + f + g;
    assert w == (a + b) + (c + d + e + f + g);
    assert w[..|a + b|] == a + b;
    assert w == (a + b + c + d + e + f) + g;
  }

  /** The second, fourth and sixth of seven concatenated strings occur in the whole. */
  lemma ContainsFilledHoles(a: string, b: string, c: string, d: string, e: string, f: string, g: string)
    ensures Contains(a + b + c + d + e + f + g, b)
    ensures Contains(a + b + c + d + e + f + g, d)
    ensures Contains(a + b + c + d + e + f + g, f)
  {
    assert a + b + c + d + e + f + g == a + b + (c + d + e + f + g);
    ContainsMiddle(a, b, c + d + e + f + g);
    assert a + b + c + d + e + f + g == (a + b + c) + d + (e + f + g);
    ContainsMiddle(a + b + c, d, e + f + g);
    ContainsMiddle(a + b + c + d + e, f, g);
  }

  /** The services context splits back into one line per service, in catalog order. */
  lemma ServicesContextLines(services: seq<Service>)
    requires |services| >= 1
    requires forall i :: 0 <= i < |services| ==>
      '\n' !in services[i].name && '\n' !in services[i].description && '\n' !in services[i].price
    ensures Split(ServicesContext(services), '\n') == ServiceLines(services)
  {
    var lines := ServiceLines(services);
    forall i | 0 <= i < |lines|
      ensures '\n' !in lines[i]
    {
      assert lines[i] == "- " + services[i].name + ": " + services[i].description + " (" + services[i].price + ")";
    }
    SplitJoin(lines, '\n');
  }

  /** The services context is empty exactly when the catalog is. */
  lemma ServicesContextEmpty(services: seq<Service>)
    ensures ServicesContext(services) == "" <==> services == []
  {
    var lines := ServiceLines(services);
    forall i | 0 <= i < |lines|
      ensures "- " <= lines[i]
    {
      assert lines[i][..2] == "- ";
    }
    DashedJoinEmpty(lines);
  }

  /** The bookings context splits back into one line per booking on the date, in booking order. */
  lemma BookingsContextLines(appointments: seq<Appointment>, date: string)
    requires exists a :: a in appointments && a.date == date
    requires forall a :: a in appointments && a.date == date ==> '\n' !in a.time && '\n' !in a.serviceName
    ensures Split(BookingsContext(appointments, date), '\n') == BookingLines(TodaysBookings(appointments, date))
  {
    var today := TodaysBookings(appointments, date);
    var lines := BookingLines(today);
    var a :| a in appointments && a.date == date;
    TodaysBookingsExact(appointments, date);
    assert a in today;
    forall i | 0 <= i < |lines|
      ensures '\n' !in lines[i]
    {
      assert today[i] in today;
      assert lines[i] == "- " + today[i].time + " is BOOKED for " + today[i].serviceName;
    }
    SplitJoin(lines, '\n');
  }

  /** The instruction names the date and carries both contexts verbatim. */
  lemma InstructionCarriesContexts(services: seq<Service>, appointments: seq<Appointment>, date: string)
    ensures Contains(SystemInstruction(services, appointments, date), DateLine(date))
    ensures Contains(SystemInstruction(services, appointments, date), ServicesContext(services))
    ensures Contains(SystemInstruction(services, appointments, date), BookingsSection(appointments, date))
  {
    ContainsFilledHoles(INTRO, DateLine(date), SERVICES_HEADING, ServicesContext(services),
      BOOKINGS_HEADING, BookingsSection(appointments, date), GOALS);
  }

  /** Every service of the catalog is offered in the instruction. */
  lemma InstructionListsEveryService(services: seq<Service>, appointments: seq<Appointment>, date: string, i: nat)
    requires i < |services|
    ensures Contains(SystemInstruction(services, appointments, date), ServiceLine(services[i]))
  {
    InstructionCarriesContexts(services, appointments, date);
    JoinContainsPart(ServiceLines(services), "\n", i);
    ContainsTransitive(SystemInstruction(services, appointments, date), ServicesContext(services), ServiceLine(services[i]));
  }

  /** Every booking on the date is reported as taken in the instruction. */
  lemma InstructionListsTodaysBookings(services: seq<Service>, appointments: seq<Appointment>, date: string, a: Appointment)
    requires a in appointments && a.date == date
    ensures Contains(SystemInstruction(services, appointments, date), BookingLine(a))
  {
    var today := TodaysBookings(appointments, date);
    TodaysBookingsExact(appointments, date);
    assert a in today;
    var j :| 0 <= j < |today| && today[j] == a;
    var bs := BookingsSection(appointments, date);
    assert bs == BookingsContext(appointments, date);
    InstructionCarriesContexts(services, appointments, date);
    JoinContainsPart(BookingLines(today), "\n", j);
    ContainsTransitive(SystemInstruction(services, appointments, date), bs, BookingLine(a));
  }

  /** Replaces an empty or missing answer text. */
  const TROUBLE_CONNECTING := "I'm sorry, I'm having trouble connecting to the barber network. Please try again."

  /** Replaces any failure of the call. */
  const SOMETHING_WRONG := "Something went wrong. Please check your settings or try again later."

  /** How the call to the model ended: with an answer, whose text may be missing, or by throwing. */
  datatype ModelCall = Answered(text: Option<string>) | CallFailed

  /**
   * What the assistant says: the model's text when it has one, a fixed
   * apology otherwise.  Every outcome gives a non-empty reply.
   */
  function Reply(call: ModelCall): (r: string)
    ensures r != ""
    ensures call.CallFailed? ==> r == SOMETHING_WRONG
    ensures call.Answered? && call.text.Some? && call.text.value != "" ==> r == call.text.value
    ensures call.Answered? && (call.text.None? || call.text.value == "") ==> r == TROUBLE_CONNECTING
  {
    match call
    case CallFailed => SOMETHING_WRONG
    case Answered(text) =>
      if text.Some? && text.value != "" then text.value else TROUBLE_CONNECTING
  }
}

=== FILE: calendar.dfy ===
/**
 * The booking calendar: the half-hour slots of a business day, whether a
 * slot is taken on a date, and the booking form that turns the chosen
 * slot, service and customer details into an appointment.
 *
 * Business hours are whole hours `start` and `end` (the shop's
 * configuration), the day's slots cover the hours `start <= h < end`.
 */
module Calendar {
  import opened Types
  import opened Text
  import AppState

  /** The label of the slot starting at `hour`:00, or at `hour`:30 when `half`. */
  function SlotLabel(hour: nat, half: bool): (r: string)
    ensures hour < 100 ==> r == [DigitChar(hour / 10), DigitChar(hour % 10), ':', if half then '3' else '0', '0']
  {
    Pad2(hour) + (if half then ":30" else ":00")
  }

  /**
   * The slots of the hours `start <= h < end`, each hour giving its ":00"
   * slot and then its ":30" slot.
   */
  function Slots(start: nat, end: nat): (r: seq<string>)
    ensures |r| % 2 == 0
    decreases end
  {
    if end <= start then []
    else Slots(start, end - 1) + [SlotLabel(end - 1, false), SlotLabel(end - 1, true)]
  }

  /** The slot loop of the calendar: one pass per business hour, two labels per pass. */
  method GenerateSlots(start: nat, end: nat) returns (slots: seq<string>)
    ensures slots == Slots(start, end)
  {
    slots := [];
    var hour := start;
    while hour < end
      invariant start <= hour
      invariant hour <= end || hour == start
      invariant slots == Slots(start, hour)
    {
      slots := slots + [SlotLabel(hour, false)];
      slots := slots + [SlotLabel(hour, true)];
      hour := hour + 1;
    }
  }

  /** There are two slots per business hour, and none when `end <= start`. */
  lemma {:induction false} SlotsLength(start: nat, end: nat)
    ensures |Slots(start, end)| == if start < end then 2 * (end - start) else 0
  {
    if start < end {
      SlotsLength(start, end - 1);
    }
  }

  /** Slot 2k is hour start+k on the hour, slot 2k+1 the half hour after it. */
  lemma {:induction false} SlotsAt(start: nat, end: nat, k: nat)
    requires start + k < end
    ensures |Slots(start, end)| == 2 * (end - start)
    ensures Slots(start, end)[2 * k] == SlotLabel(start + k, false)
    ensures Slots(start, end)[2 * k + 1] == SlotLabel(start + k, true)
  {
    SlotsLength(start, end - 1);
    if start + k < end - 1 {
      SlotsAt(start, end - 1, k);
    }
  }

  /** Lexicographic order of strings, which is how two ASCII slot labels compare. */
  predicate LexLess(a: string, b: string) {
    if a == [] then b != []
    else b != [] && (a[0] < b[0] || (a[0] == b[0] && LexLess(a[1..], b[1..])))
  }

  lemma {:induction false} LexLessAt(a: string, b: string, k: nat)
    requires k < |a| && k < |b| && a[..k] == b[..k] && a[k] < b[k]
    ensures LexLess(a, b)
  {
    if k > 0 {
      assert a[0] == a[..k][0] && b[0] == b[..k][0];
      assert a[1..][..k - 1] == a[..k][1..] && b[1..][..k - 1] == b[..k][1..];
      LexLessAt(a[1..], b[1..], k - 1);
    }
  }

  lemma {:induction false} LexLessIrreflexive(a: string)
    ensures !LexLess(a, a)
  {
    if a != [] {
      LexLessIrreflexive(a[1..]);
    }
  }

  /** The position of a slot in the day, counted in half hours. */
  function HalfHours(hour: nat, half: bool): nat {
    2 * hour + (if half then 1 else 0)
  }

  /** An earlier half hour has a smaller tens digit, or the same tens and a smaller units digit, or is the same hour's ":00". */
  lemma HalfHourDigits(h1: nat, half1: bool, h2: nat, half2: bool)
    requires HalfHours(h1, half1) < HalfHours(h2, half2)
    ensures h1 / 10 < h2 / 10 || (h1 / 10 == h2 / 10 && h1 % 10 < h2 % 10) || (h1 == h2 && !half1 && half2)
  {
    assert h1 <= h2;
    if h1 < h2 && h1 / 10 == h2 / 10 {
      assert h1 == 10 * (h1 / 10) + h1 % 10 && h2 == 10 * (h2 / 10) + h2 % 10;
    }
  }

  /** For two-digit hours, an earlier slot has a smaller label. */
  lemma SlotLabelOrder(h1: nat, half1: bool, h2: nat, half2: bool)
    requires h1 < 100 && h2 < 100
    requires HalfHours(h1, half1) < HalfHours(h2, half2)
    ensures LexLess(SlotLabel(h1, half1), SlotLabel(h2, half2))
  {
    var a, b := SlotLabel(h1, half1), SlotLabel(h2, half2);
    HalfHourDigits(h1, half1, h2, half2);
    if h1 / 10 < h2 / 10 {
      LexLessAt(a, b, 0);
    } else if h1 / 10 == h2 / 10 && h1 % 10 < h2 % 10 {
      assert a[..1] == b[..1];
      LexLessAt(a, b, 1);
    } else {
      assert a[..3] == b[..3];
      LexLessAt(a, b, 3);
    }
  }

  /** Slot i belongs to hour start + i/2, and is its half-hour slot when i is odd. */
  lemma SlotsIndex(start: nat, end: nat, i: nat)
    requires i < |Slots(start, end)|
    ensures start + i / 2 < end
    ensures Slots(start, end)[i] == SlotLabel(start + i / 2, i % 2 == 1)
  {
    SlotsLength(start, end);
    var k := i / 2;
    SlotsAt(start, end, k);
    if i % 2 == 0 {
      assert i == 2 * k;
    } else {
      assert i == 2 * k + 1;
    }
  }

  /** Two slots of the list compare in the order of their positions. */
  lemma SlotsOrderedPair(start: nat, end: nat, i: nat, j: nat)
    requires end <= 100
    requires i < j < |Slots(start, end)|
    ensures LexLess(Slots(start, end)[i], Slots(start, end)[j])
  {
    SlotsIndex(start, end, i);
    SlotsIndex(start, end, j);
    HalfHoursOfIndex(start, i);
    HalfHoursOfIndex(start, j);
    SlotLabelOrder(start + i / 2, i % 2 == 1, start + j / 2, j % 2 == 1);
  }

  /** Slot i of a day starting at `start` lies 2·start + i half hours after midnight. */
  lemma HalfHoursOfIndex(start: nat, i: nat)
    ensures HalfHours(start + i / 2, i % 2 == 1) == 2 * start + i
  {
    assert i == 2 * (i / 2) + i % 2;
  }

  /** With two-digit hours the slot list is strictly ascending. */
  lemma SlotsAscending(start: nat, end: nat)
    requires end <= 100
    ensures forall i, j :: 0 <= i < j < |Slots(start, end)| ==> LexLess(Slots(start, end)[i], Slots(start, end)[j])
  {
    forall i, j | 0 <= i < j < |Slots(start, end)|
      ensures LexLess(Slots(start, end)[i], Slots(start, end)[j])
    {
      SlotsOrderedPair(start, end, i, j);
    }
  }

  /** Hence no label occurs twice. */
  lemma SlotsDistinct(start: nat, end: nat)
    requires end <= 100
    ensures forall i, j :: 0 <= i < j < |Slots(start, end)| ==> Slots(start, end)[i] != Slots(start, end)[j]
  {
    SlotsAscending(start, end);
    forall i, j | 0 <= i < j < |Slots(start, end)|
      ensures Slots(start, end)[i] != Slots(start, end)[j]
    {
      LexLessIrreflexive(Slots(start, end)[i]);
    }
  }

  /** Hours 9 to 19 give twenty slots, from "09:00" to "18:30". */
  lemma NineToSeven()
    ensures |Slots(9, 19)| == 20
    ensures Slots(9, 19)[0] == "09:00" && Slots(9, 19)[19] == "18:30"
  {
    SlotsAt(9, 19, 0);
    SlotsAt(9, 19, 9);
  }

  /** "10:00" is one of the slots of hours 9 to 19. */
  lemma TenOClock()
    ensures "10:00" in Slots(9, 19)
  {
    SlotsAt(9, 19, 1);
    assert NatToString(10) == NatToString(1) + [DigitChar(0)];
    assert Pad2(10) == "10";
    assert SlotLabel(10, false) == "10:00";
    assert Slots(9, 19)[2] == "10:00";
  }

  /**
   * A slot is booked on a date when some appointment has exactly that
   * date and that time.
   */
  function IsSlotBooked(appointments: seq<Appointment>, date: string, time: string): (booked: bool)
    ensures booked <==> exists i :: 0 <= i < |appointments| && appointments[i].date == date && appointments[i].time == time
  {
    if appointments == [] then false
    else ((appointments[0].date == date && appointments[0].time == time)
          || IsSlotBooked(appointments[1..], date, time))
  }

  /** `Array.prototype.find` on the catalog: the first service with the id. */
  function FindService(services: seq<Service>, id: string): (r: Option<Service>)
    ensures r.None? <==> forall i :: 0 <= i < |services| ==> services[i].id != id
    ensures r.Some? ==> exists i :: (0 <= i < |services| && services[i] == r.value && services[i].id == id
                                     && forall j :: 0 <= j < i ==> services[j].id != id)
  {
    if services == [] then None
    else if services[0].id == id then Some(services[0])
    else FindService(services[1..], id)
  }

  /** The name shown for a booked service when it is missing or has no name. */
  const DEFAULT_SERVICE_NAME := "Service"

  /**
   * The service name snapshotted into a booking: the name of the first
   * catalog entry with the id, or the default when there is none or its
   * name is empty.
   */
  function ServiceName(services: seq<Service>, id: string): (name: string)
    ensures name != ""
    ensures (forall i :: 0 <= i < |services| ==> services[i].id != id) ==> name == DEFAULT_SERVICE_NAME
    ensures forall i :: (0 <= i < |services| && services[i].id == id && (forall j :: 0 <= j < i ==> services[j].id != id)
                         ==> name == if services[i].name != "" then services[i].name else DEFAULT_SERVICE_NAME)
  {
    var found := FindService(services, id);
    if found.Some? && found.value.name != "" then found.value.name else DEFAULT_SERVICE_NAME
  }

  /** The fields of the booking form; `time` is unset until a slot is chosen. */
  datatype BookingForm = BookingForm(
    date: string,
    time: Option<string>,
    serviceId: string,
    customerName: string,
    mobileNumber: string)

  /** A form field that the booking handler treats as missing (unset or empty). */
  predicate MissingField(form: BookingForm) {
    form.time.None? || form.time.value == "" || form.customerName == ""
    || form.mobileNumber == "" || form.serviceId == ""
  }

  /**
   * The appointment the booking handler builds from the form, or None when
   * a field is missing.  There is no check that the slot is still free.
   */
  function Book(form: BookingForm, services: seq<Service>, freshId: string): (r: Option<Appointment>)
    ensures r.None? <==> MissingField(form)
    ensures r.Some? ==> (r.value.id == freshId
                         && r.value.customerName == form.customerName && r.value.mobileNumber == form.mobileNumber
                         && r.value.serviceId == form.serviceId && r.value.date == form.date
                         && Some(r.value.time) == form.time
                         && r.value.serviceName == ServiceName(services, form.serviceId))
  {
    if MissingField(form) then None
    else Some(Appointment(freshId, form.customerName, form.mobileNumber, form.serviceId,
      ServiceName(services, form.serviceId), form.date, form.time.value))
  }

  /** The confirm button is enabled when a slot, a name and a number are given. */
  predicate ConfirmEnabled(form: BookingForm) {
    form.time.Some? && form.time.value != "" && form.customerName != "" && form.mobileNumber != ""
  }

  /**
   * The button's condition is weaker than the handler's: the handler also
   * rejects an empty service id, and whatever the button refuses, the
   * handler refuses too.
   */
  lemma ConfirmGuardWeaker(form: BookingForm, services: seq<Service>, freshId: string)
    ensures !ConfirmEnabled(form) ==> Book(form, services, freshId).None?
    ensures Book(form, services, freshId).Some? <==> ConfirmEnabled(form) && form.serviceId != ""
  {
  }

  /** No two appointments share both date and time. */
  predicate NoDoubleBooking(appointments: seq<Appointment>) {
    forall i, j :: 0 <= i < j < |appointments| ==>
      !(appointments[i].date == appointments[j].date && appointments[i].time == appointments[j].time)
  }

  /**
   * Booking a slot that is already taken succeeds, and appending the
   * result breaks the one-customer-per-slot rule: the handler has no
   * conflict check.
   */
  lemma BookIgnoresConflicts(appointments: seq<Appointment>, form: BookingForm, services: seq<Service>, freshId: string)
    requires !MissingField(form)
    requires IsSlotBooked(appointments, form.date, form.time.value)
    ensures Book(form, services, freshId).Some?
    ensures !NoDoubleBooking(appointments + [Book(form, services, freshId).value])
  {
    var i :| 0 <= i < |appointments| && appointments[i].date == form.date && appointments[i].time == form.time.value;
    var after := appointments + [Book(form, services, freshId).value];
    assert after[i] == appointments[i];
    assert after[|appointments|].date == form.date && after[|appointments|].time == form.time.value;
  }

  /**
   * The calendar screen: its form state and whether the confirmation is
   * being shown.  `start` and `end` are the business hours.
   */
  class CalendarView {
    const start: nat
    const end: nat
    var form: BookingForm
    var isSuccess: bool

    /** Opens on today's date with no slot chosen and the first service preselected. */
    constructor(start: nat, end: nat, today: string, services: seq<Service>)
      ensures this.start == start && this.end == end
      ensures form == BookingForm(today, None, if |services| > 0 then services[0].id else "", "", "")
      ensures !isSuccess
    {
      this.start := start;
      this.end := end;
      form := BookingForm(today, None, if |services| > 0 then services[0].id else "", "", "");
      isSuccess := false;
    }

    /** The date picker; the chosen slot is kept. */
    method SetDate(date: string)
      requires !isSuccess
      modifies this
      ensures form == old(form).(date := date) && !isSuccess
    {
      form := form.(date := date);
    }

    method SetServiceId(id: string)
      requires !isSuccess
      modifies this
      ensures form == old(form).(serviceId := id) && !isSuccess
    {
      form := form.(serviceId := id);
    }

    method SetCustomerName(name: string)
      requires !isSuccess
      modifies this
      ensures form == old(form).(customerName := name) && !isSuccess
    {
      form := form.(customerName := name);
    }

    method SetMobileNumber(number: string)
      requires !isSuccess
      modifies this
      ensures form == old(form).(mobileNumber := number) && !isSuccess
    {
      form := form.(mobileNumber := number);
    }

    /**
     * A click on the button of one of the day's slots.  The button of a
     * booked slot is disabled, so the click selects nothing there.
     */
    method ClickSlot(time: string, app: AppState.App)
      requires !isSuccess
      requires time in Slots(start, end)
      modifies this
      ensures IsSlotBooked(app.appointments, old(form).date, time) ==> form == old(form)
      ensures !IsSlotBooked(app.appointments, old(form).date, time) ==> form == old(form).(time := Some(time))
      ensures !isSuccess
    {
      if !IsSlotBooked(app.appointments, form.date, time) {
        form := form.(time := Some(time));
      }
    }

    /**
     * The confirm handler: builds the appointment from the form and hands
     * it to the store, then shows the confirmation; with a missing field
     * nothing changes.
     */
    method HandleBook(app: AppState.App, freshId: string)
      requires !isSuccess
      modifies this, app
      ensures Book(old(form), old(app.services), freshId).None? ==>
        app.appointments == old(app.appointments) && !isSuccess
      ensures Book(old(form), old(app.services), freshId).Some? ==>
        app.appointments == old(app.appointments) + [Book(old(form), old(app.services), freshId).value] && isSuccess
      ensures form == old(form) && app.services == old(app.services)
    {
      var newApp := Book(form, app.services, freshId);
      if newApp.Some? {
        app.AddAppointment(newApp.value);
        isSuccess := true;
      }
    }

    /** The delayed reset after a confirmation: slot, name and number are cleared. */
    method ResetAfterConfirmation()
      modifies this
      ensures form == old(form).(time := None, customerName := "", mobileNumber := "")
      ensures !isSuccess
    {
      isSuccess := false;
      form := form.(time := None, customerName := "", mobileNumber := "");
    }
  }

  /**
   * The disabled slot button is the only guard, and it is checked when the
   * slot is chosen, not when the booking is confirmed: a slot chosen on a
   * date where it is free stays chosen when the date is changed to one
   * where it is taken, and confirming then books it a second time.
   */
  method StaleSlotScenario(view: CalendarView, app: AppState.App, time: string, takenDate: string, name: string, number: string, freshId: string)
    requires !view.isSuccess && time in Slots(view.start, view.end)
    requires !IsSlotBooked(app.appointments, view.form.date, time)
    requires IsSlotBooked(app.appointments, takenDate, time)
    requires time != "" && name != "" && number != "" && view.form.serviceId != ""
    modifies view, app
    ensures view.form.date == takenDate && view.form.time == Some(time)
    ensures !NoDoubleBooking(app.appointments)
  {
    view.ClickSlot(time, app);
    view.SetDate(takenDate);
    view.SetCustomerName(name);
    view.SetMobileNumber(number);
    BookIgnoresConflicts(app.appointments, view.form, app.services, freshId);
    view.HandleBook(app, freshId);
  }

  /** A book with one appointment has exactly that appointment's slot taken. */
  lemma SingleBooking(a: Appointment, date: string, time: string)
    ensures IsSlotBooked([a], date, time) <==> a.date == date && a.time == time
  {
    assert [a][1..] == [];
  }

  /** The scenario above on the shop's hours: "10:00" is taken on one day and chosen on the day before. */
  method StaleSlotDoubleBooks() returns (app: AppState.App)
    ensures !NoDoubleBooking(app.appointments)
  {
    var haircut := Service("1", "Classic Haircut", "Traditional cut with hot towel finish.", "\U{20B9}350", Some("45 min"));
    var taken := Appointment("a", "Ravi", "111", "1", "Classic Haircut", "2026-10-12", "10:00");
    app := new AppState.App(Some([haircut]), Some([taken]));
    var view := new CalendarView(9, 19, "2026-10-11", app.services);
    TenOClock();
    assert "2026-10-11" != "2026-10-12" by {
      assert "2026-10-11"[9] != "2026-10-12"[9];
    }
    SingleBooking(taken, "2026-10-11", "10:00");
    SingleBooking(taken, "2026-10-12", "10:00");
    StaleSlotScenario(view, app, "10:00", "2026-10-12", "Asha", "222", "b");
  }
}

=== FILE: catalog.dfy ===
/**
 * The services screen's upload handler: it marks an upload as running,
 * waits for the importer, then either replaces the whole catalog or shows
 * the error, and finally marks the upload as finished.
 */
module Catalog {
  import opened Types
  import Importer
  import AppState

  /** Shown when the importer throws something that is not an Error. */
  const PARSE_FAILED := "Failed to parse file"

  /** What awaiting the importer gives: the parsed list, a thrown Error with its message, or another thrown value. */
  datatype UploadOutcome = Parsed(services: seq<Service>) | ThrewError(message: string) | ThrewOther

  /** The importer signals failure by throwing an Error that carries its message. */
  function OutcomeOf(r: Result<seq<Service>, string>): (o: UploadOutcome)
    ensures r.Success? <==> o.Parsed?
    ensures r.Success? ==> o.services == r.value
    ensures r.Failure? ==> o == ThrewError(r.error)
  {
    match r
    case Success(services) => Parsed(services)
    case Failure(message) => ThrewError(message)
  }

  /** The catalog together with the screen's own two state cells. */
  datatype ListState = ListState(services: seq<Service>, error: Option<string>, isUploading: bool)

  /** The steps before the await: the upload is running and the old error is cleared. */
  function Begin(st: ListState): (r: ListState)
    ensures r.services == st.services && r.error.None? && r.isUploading
  {
    st.(error := None, isUploading := true)
  }

  /** The steps after the await: commit the list or record the error, then stop uploading. */
  function Finish(st: ListState, outcome: UploadOutcome): (r: ListState)
    ensures !r.isUploading
    ensures outcome.Parsed? ==> r.services == outcome.services && r.error == st.error
    ensures outcome.ThrewError? ==> r.services == st.services && r.error == Some(outcome.message)
    ensures outcome.ThrewOther? ==> r.services == st.services && r.error == Some(PARSE_FAILED)
  {
    match outcome
    case Parsed(services) => st.(services := services, isUploading := false)
    case ThrewError(message) => st.(error := Some(message), isUploading := false)
    case ThrewOther => st.(error := Some(PARSE_FAILED), isUploading := false)
  }

  /**
   * The whole handler.  Without a file nothing changes.  Otherwise the
   * upload ends not running; a successful import replaces the catalog
   * wholesale and leaves no error; a failed one keeps the catalog and
   * shows the importer's fixed message.
   */
  function HandleUpload(st: ListState, file: Option<Importer.Conversion>, symbol: char, ids: nat -> string): (r: ListState)
    ensures file.None? ==> r == st
    ensures file.Some? ==> !r.isUploading
    ensures file.Some? && Importer.ImportServices(file.value, symbol, ids).Success? ==>
      r.services == Importer.ImportServices(file.value, symbol, ids).value && r.error.None?
    ensures file.Some? && file.value.Unreadable? ==>
      r.services == st.services && r.error == Some(Importer.IMPORT_ERROR)
  {
    if file.None? then st
    else Finish(Begin(st), OutcomeOf(Importer.ImportServices(file.value, symbol, ids)))
  }

  /** The "Failed to parse file" fallback cannot be reached from this importer, which only throws Errors. */
  lemma NoOtherThrow(file: Importer.Conversion, symbol: char, ids: nat -> string)
    ensures !OutcomeOf(Importer.ImportServices(file, symbol, ids)).ThrewOther?
    ensures OutcomeOf(Importer.ImportServices(file, symbol, ids)).ThrewError? ==>
      OutcomeOf(Importer.ImportServices(file, symbol, ids)).message == Importer.IMPORT_ERROR
  {
  }

  /** The services screen, writing the catalog through the application's state. */
  class ServiceListView {
    const app: AppState.App
    var isUploading: bool
    var error: Option<string>

    function State(): ListState
      reads this, app
    {
      ListState(app.services, error, isUploading)
    }

    constructor(app: AppState.App)
      ensures this.app == app && !isUploading && error.None?
    {
      this.app := app;
      isUploading := false;
      error := None;
    }

    method BeginUpload()
      modifies this
      ensures State() == Begin(old(State()))
    {
      isUploading := true;
      error := None;
    }

    method FinishUpload(outcome: UploadOutcome)
      modifies this, app
      ensures State() == Finish(old(State()), outcome)
      ensures app.appointments == old(app.appointments)
    {
      match outcome {
        case Parsed(services) =>
          app.SetServices(services);
        case ThrewError(message) =>
          error := Some(message);
        case ThrewOther =>
          error := Some(PARSE_FAILED);
      }
      isUploading := false;
    }

    /** The file input's change handler. */
    method HandleFileUpload(file: Option<Importer.Conversion>, symbol: char, ids: nat -> string)
      modifies this, app
      ensures State() == HandleUpload(old(State()), file, symbol, ids)
      ensures app.appointments == old(app.appointments)
    {
      if file.None? {
        return;
      }
      BeginUpload();
      var r := Importer.ParseDocxServices(file.value, symbol, ids);
      FinishUpload(OutcomeOf(r));
    }
  }
}

=== FILE: importer.dfy ===
/**
 * The service-catalog importer.  The uploaded document has already been
 * converted (the converter itself is outside the model): it is either the
 * rows of its first table, each with the row's text and the texts of its
 * `td` cells, or, when it has no table, its plain text.  A document that
 * could not be read or converted is `Unreadable`.
 *
 * The k-th service produced by one import gets the id `ids(k)`; the ids
 * stand for the random strings of the implementation.
 */
module Importer {
  import opened Types
  import opened Text
  import opened Seqs

  datatype Row = Row(text: string, cells: seq<string>)

  datatype Document = Table(rows: seq<Row>) | PlainText(text: string)

  datatype Conversion = Converted(doc: Document) | Unreadable

  const IMPORT_ERROR := "Could not parse DOCX file. Please ensure it contains a service table."
  const DEFAULT_PRICE := "TBD"
  const DEFAULT_DURATION := "30-60 min"
  const DEFAULT_NAME := "Service"
  const EXTRACTED_DESCRIPTION := "Extracted from document"
  const NO_PRICE := "Call for price"
  const MAX_TEXT_SERVICES: nat := 5

  // ---------------------------------------------------------------------
  // Table path
  // ---------------------------------------------------------------------

  /** A first row whose lower-cased text mentions "service" is a header. */
  predicate IsHeaderRow(row: Row) {
    Contains(ToLowerAscii(row.text), "service")
  }

  /** Where the data rows begin: after a header row, otherwise at the first row. */
  function StartIndex(rows: seq<Row>): (start: nat)
    ensures start <= |rows|
    ensures start == 1 <==> |rows| > 0 && IsHeaderRow(rows[0])
    ensures start == 0 <==> !(|rows| > 0 && IsHeaderRow(rows[0]))
  {
    if |rows| > 0 && IsHeaderRow(rows[0]) then 1 else 0
  }

  /** Only rows with a name cell and a description cell make a service. */
  predicate HasTwoCells(row: Row) {
    |row.cells| >= 2
  }

  /** Cell k trimmed, or the default when the row has no cell k or it trims to nothing. */
  function CellOr(cells: seq<string>, k: nat, default: string): (r: string)
    requires default != "" && IsTrimmed(default)
    ensures r != "" && IsTrimmed(r)
    ensures r == default || (k < |cells| && r == Trim(cells[k]))
    ensures k < |cells| && Trim(cells[k]) != "" ==> r == Trim(cells[k])
  {
    if k < |cells| && Trim(cells[k]) != "" then Trim(cells[k]) else default
  }

  /** The service a data row describes. */
  function RowService(row: Row, id: string): (r: Service)
    requires HasTwoCells(row)
    ensures r.id == id && r.price != "" && r.duration.Some? && r.duration.value != ""
  {
    Service(id, Trim(row.cells[0]), Trim(row.cells[1]),
      CellOr(row.cells, 2, DEFAULT_PRICE), Some(CellOr(row.cells, 3, DEFAULT_DURATION)))
  }

  /** Makes the j-th service of an import from its row. */
  function RowMaker(ids: nat -> string): (Row, nat) --> Service {
    (row: Row, j: nat) requires HasTwoCells(row) => RowService(row, ids(j))
  }

  /** One service per kept row, in row order, the j-th with id `ids(j)`. */
  function RowServices(kept: seq<Row>, ids: nat -> string): (r: seq<Service>)
    requires forall i :: 0 <= i < |kept| ==> HasTwoCells(kept[i])
    ensures |r| == |kept|
  {
    MapIndexed(kept, RowMaker(ids))
  }

  /** The services of a table: the data rows with at least two cells, in order. */
  function TableServices(rows: seq<Row>, ids: nat -> string): (r: seq<Service>)
    ensures forall j :: 0 <= j < |r| ==> r[j].id == ids(j)
  {
    RowServices(Filter(rows[StartIndex(rows)..], HasTwoCells), ids)
  }

  lemma RowServicesSnoc(kept: seq<Row>, row: Row, ids: nat -> string)
    requires forall i :: 0 <= i < |kept| ==> HasTwoCells(kept[i])
    requires HasTwoCells(row)
    ensures RowServices(kept + [row], ids) == RowServices(kept, ids) + [RowService(row, ids(|kept|))]
  {
    MapIndexedSnoc(kept, row, RowMaker(ids));
  }

  /** The row loop of the importer: skip the header, push a service for every row with two cells. */
  method ParseTable(rows: seq<Row>, ids: nat -> string) returns (services: seq<Service>)
    ensures services == TableServices(rows, ids)
  {
    services := [];
    var startIndex := StartIndex(rows);
    ghost var kept: seq<Row> := [];
    var i := startIndex;
    while i < |rows|
      invariant startIndex <= i <= |rows|
      invariant kept == Filter(rows[startIndex..i], HasTwoCells)
      invariant services == RowServices(kept, ids)
    {
      FilterSnoc(rows[startIndex..i], rows[i], HasTwoCells);
      assert rows[startIndex..i + 1] == rows[startIndex..i] + [rows[i]];
      var cells := rows[i].cells;
      if |cells| >= 2 {
        RowServicesSnoc(kept, rows[i], ids);
        services := services + [RowService(rows[i], ids(|services|))];
        kept := kept + [rows[i]];
      }
      i := i + 1;
    }
    assert rows[startIndex..i] == rows[startIndex..];
  }

  /**
   * At most one service per row after the header; exactly one per row when
   * every such row has two cells, taken from that row.
   */
  lemma TableServicesShape(rows: seq<Row>, ids: nat -> string)
    ensures |TableServices(rows, ids)| <= |rows| - StartIndex(rows)
    ensures (forall i :: StartIndex(rows) <= i < |rows| ==> HasTwoCells(rows[i])) ==>
      |TableServices(rows, ids)| == |rows| - StartIndex(rows)
      && forall j :: 0 <= j < |rows| - StartIndex(rows) ==>
        TableServices(rows, ids)[j] == RowService(rows[StartIndex(rows) + j], ids(j))
  {
    var start := StartIndex(rows);
    var data := rows[start..];
    if forall i :: start <= i < |rows| ==> HasTwoCells(rows[i]) {
      assert forall i :: 0 <= i < |data| ==> data[i] == rows[start + i];
      FilterAll(data, HasTwoCells);
      var r := TableServices(rows, ids);
      assert r == MapIndexed(data, RowMaker(ids));
      forall j | 0 <= j < |data|
        ensures r[j] == RowService(rows[start + j], ids(j))
      {
        assert r[j] == RowMaker(ids)(data[j], j);
      }
    }
  }

  /** A service comes from a data row exactly when that row has two cells. */
  lemma TableRowKept(rows: seq<Row>, row: Row)
    ensures row in Filter(rows[StartIndex(rows)..], HasTwoCells) <==> row in rows[StartIndex(rows)..] && HasTwoCells(row)
  {
    FilterMembership(rows[StartIndex(rows)..], HasTwoCells, row);
  }

  /** Removing a row with fewer than two cells (other than the first row) changes nothing. */
  lemma ShortRowIgnored(rows: seq<Row>, k: nat, ids: nat -> string)
    requires 1 <= k < |rows|
    requires !HasTwoCells(rows[k])
    ensures TableServices(rows[..k] + rows[k + 1..], ids) == TableServices(rows, ids)
  {
    var without := rows[..k] + rows[k + 1..];
    assert without[0] == rows[0];
    var s := StartIndex(rows);
    assert StartIndex(without) == s;
    var data := rows[s..];
    assert without[s..] == data[..k - s] + data[k - s + 1..];
    FilterSkip(data, k - s, HasTwoCells);
  }

  /** Every imported table service is clean. */
  lemma TableServicesClean(rows: seq<Row>, ids: nat -> string)
    ensures forall j :: 0 <= j < |TableServices(rows, ids)| ==> IsClean(TableServices(rows, ids)[j])
  {
    var kept := Filter(rows[StartIndex(rows)..], HasTwoCells);
    forall j | 0 <= j < |TableServices(rows, ids)|
      ensures IsClean(TableServices(rows, ids)[j])
    {
      var row := kept[j];
      assert TableServices(rows, ids)[j] == RowService(row, ids(j));
      var name, description := Trim(row.cells[0]), Trim(row.cells[1]);
      assert IsTrimmed(name) && IsTrimmed(description);
    }
  }

  /** A service whose text fields carry no surrounding whitespace and whose price and duration are set. */
  predicate IsClean(s: Service) {
    IsTrimmed(s.name) && IsTrimmed(s.description) && s.price != "" && IsTrimmed(s.price)
    && s.duration.Some? && s.duration.value != "" && IsTrimmed(s.duration.value)
  }

  /** The header row of a rendered catalog. */
  const HEADER_ROW := Row("Service\tDescription\tPrice\tDuration", ["Service", "Description", "Price", "Duration"])

  /** The cells of a service's row: name, description, price and, when set, duration. */
  function CellsOf(s: Service): seq<string> {
    [s.name, s.description, s.price] + (if s.duration.Some? then [s.duration.value] else [])
  }

  /** A table that lists the catalog under a header, one row per service. */
  function Render(catalog: seq<Service>): (rows: seq<Row>)
    ensures |rows| == |catalog| + 1
    ensures rows[0] == HEADER_ROW
    ensures forall j :: 0 <= j < |catalog| ==> rows[j + 1] == Row(Join(CellsOf(catalog[j]), "\t"), CellsOf(catalog[j]))
  {
    [HEADER_ROW] + seq(|catalog|, j requires 0 <= j < |catalog| =>
      Row(Join(CellsOf(catalog[j]), "\t"), CellsOf(catalog[j])))
  }

  lemma HeaderRowIsHeader()
    ensures IsHeaderRow(HEADER_ROW)
  {
    var lower := ToLowerAscii(HEADER_ROW.text);
    var text := HEADER_ROW.text;
    assert text[0] == 'S' && text[1] == 'e' && text[2] == 'r' && text[3] == 'v';
    assert text[4] == 'i' && text[5] == 'c' && text[6] == 'e';
    assert lower[0] == 's' && lower[1] == 'e' && lower[2] == 'r' && lower[3] == 'v';
    assert lower[4] == 'i' && lower[5] == 'c' && lower[6] == 'e';
    assert lower[..7] == "service";
  }

  /** A row holding the cells of a clean service maps back to that service, whatever its text. */
  lemma RowOfCellsParses(s: Service, text: string, id: string)
    requires IsClean(s)
    ensures HasTwoCells(Row(text, CellsOf(s)))
    ensures RowService(Row(text, CellsOf(s)), id) == s.(id := id)
  {
    var cells := CellsOf(s);
    assert cells == [s.name, s.description, s.price, s.duration.value];
    TrimOfTrimmed(s.name);
    TrimOfTrimmed(s.description);
    TrimOfTrimmed(s.price);
    TrimOfTrimmed(s.duration.value);
  }

  /**
   * Round trip: importing the rendered table of a clean catalog gives the
   * catalog back, each service with its new id.
   */
  lemma TableRoundTrip(catalog: seq<Service>, ids: nat -> string)
    requires forall j :: 0 <= j < |catalog| ==> IsClean(catalog[j])
    ensures |TableServices(Render(catalog), ids)| == |catalog|
    ensures forall j :: 0 <= j < |catalog| ==> TableServices(Render(catalog), ids)[j] == catalog[j].(id := ids(j))
  {
    var rows := Render(catalog);
    HeaderRowIsHeader();
    assert StartIndex(rows) == 1;
    var data := rows[1..];
    forall i | 0 <= i < |data|
      ensures HasTwoCells(data[i])
    {
      RowOfCellsParses(catalog[i], Join(CellsOf(catalog[i]), "\t"), ids(i));
    }
    FilterAll(data, HasTwoCells);
    assert TableServices(rows, ids) == RowServices(data, ids);
    forall j | 0 <= j < |catalog|
      ensures RowServices(data, ids)[j] == catalog[j].(id := ids(j))
    {
      RowOfCellsParses(catalog[j], Join(CellsOf(catalog[j]), "\t"), ids(j));
      assert data[j] == Row(Join(CellsOf(catalog[j]), "\t"), CellsOf(catalog[j]));
    }
  }

  // ---------------------------------------------------------------------
  // Text path
  // ---------------------------------------------------------------------

  /**
   * The line filter `l.trim().length > 0`, stated as "not all whitespace";
   * TrimEmptyIffBlank shows the two agree.
   */
  predicate NotBlank(line: string) {
    !IsBlank(line)
  }

  lemma NotBlankIsTrimNonEmpty(line: string)
    ensures NotBlank(line) <==> |Trim(line)| > 0
  {
    TrimEmptyIffBlank(line);
  }

  /** The non-blank lines of the text, in order. */
  function NonBlankLines(text: string): (r: seq<string>)
    ensures |r| <= |Split(text, '\n')|
  {
    Filter(Split(text, '\n'), NotBlank)
  }

  /** Each non-blank line is a line of the text that is not blank, and every such line is kept. */
  lemma NonBlankLinesSpec(text: string)
    ensures forall i :: 0 <= i < |NonBlankLines(text)| ==> '\n' !in NonBlankLines(text)[i] && !IsBlank(NonBlankLines(text)[i])
    ensures forall line :: line in NonBlankLines(text) <==> line in Split(text, '\n') && !IsBlank(line)
  {
    var lines := Split(text, '\n');
    forall i | 0 <= i < |NonBlankLines(text)|
      ensures '\n' !in NonBlankLines(text)[i] && !IsBlank(NonBlankLines(text)[i])
    {
      FilterMembership(lines, NotBlank, NonBlankLines(text)[i]);
      TrimEmptyIffBlank(NonBlankLines(text)[i]);
    }
    forall line
      ensures line in NonBlankLines(text) <==> line in lines && !IsBlank(line)
    {
      FilterMembership(lines, NotBlank, line);
      TrimEmptyIffBlank(line);
    }
  }

  /** The text before the first '-' or ':', the whole line when there is neither. */
  function NamePart(line: string): (r: string)
    ensures r <= line
    ensures '-' !in r && ':' !in r
    ensures |r| < |line| ==> line[|r|] == '-' || line[|r|] == ':'
  {
    if line == [] || line[0] == '-' || line[0] == ':' then [] else [line[0]] + NamePart(line[1..])
  }

  /** Text without a separator, followed by one, is exactly the name part. */
  lemma {:induction false} NamePartBefore(name: string, sep: char, rest: string)
    requires sep == '-' || sep == ':'
    requires '-' !in name && ':' !in name
    ensures NamePart(name + [sep] + rest) == name
  {
    if name == [] {
      assert name + [sep] + rest == [sep] + rest;
    } else {
      assert (name + [sep] + rest)[1..] == name[1..] + [sep] + rest;
      NamePartBefore(name[1..], sep, rest);
      assert [name[0]] + name[1..] == name;
    }
  }

  /** The fallback name: the trimmed name part, or the default when that is empty. */
  function LineName(line: string): (name: string)
    ensures name != "" && IsTrimmed(name) && '-' !in name && ':' !in name
    ensures Trim(NamePart(line)) != "" ==> name == Trim(NamePart(line))
    ensures Trim(NamePart(line)) == "" ==> name == DEFAULT_NAME
  {
    var part := NamePart(line);
    var t := Trim(part);
    assert forall c :: c in t ==> c in part;
    if t != "" then t else DEFAULT_NAME
  }

  // The price pattern: a literal, then an optional character, then one or
  // more ASCII digits, taken at its leftmost match with a greedy digit run.

  /** The end of the run of digits that starts at i. */
  function DigitRunEnd(s: string, i: nat): (e: nat)
    requires i <= |s|
    ensures i <= e <= |s|
    ensures forall k :: i <= k < e ==> IsDigit(s[k])
    ensures e == |s| || !IsDigit(s[e])
    decreases |s| - i
  {
    if i < |s| && IsDigit(s[i]) then DigitRunEnd(s, i + 1) else i
  }

  /**
   * Where a match of `lit opt? digits` that starts at p ends, if there is
   * one.  A match exists exactly when the literal is followed by a digit,
   * or by `opt` and then a digit; it takes `opt` when a digit follows it,
   * and then the whole run of digits.
   */
  function MatchAt(s: string, p: nat, lit: string, opt: char): (r: Option<nat>)
    requires p <= |s|
    ensures r.Some? <==> lit <= s[p..] && var q := p + |lit|;
      (q < |s| && IsDigit(s[q])) || (q + 1 < |s| && s[q] == opt && IsDigit(s[q + 1]))
    ensures r.Some? ==> p + |lit| < r.value <= |s| && lit <= s[p..]
    ensures r.Some? ==> IsDigit(s[p + |lit|]) || s[p + |lit|] == opt
    ensures r.Some? ==> forall k :: p + |lit| < k < r.value ==> IsDigit(s[k])
    ensures r.Some? ==> IsDigit(s[r.value - 1]) && (r.value == |s| || !IsDigit(s[r.value]))
  {
    var q := p + |lit|;
    if !(lit <= s[p..]) then None
    else if q + 1 < |s| && s[q] == opt && IsDigit(s[q + 1]) then Some(DigitRunEnd(s, q + 1))
    else if q < |s| && IsDigit(s[q]) then Some(DigitRunEnd(s, q))
    else None
  }

  /** The leftmost match at or after `from`, as its start and end. */
  function FirstMatch(s: string, lit: string, opt: char, from: nat): (r: Option<(nat, nat)>)
    requires from <= |s|
    ensures r.Some? ==> from <= r.value.0 <= |s| && MatchAt(s, r.value.0, lit, opt) == Some(r.value.1)
    ensures r.Some? ==> forall q :: from <= q < r.value.0 ==> MatchAt(s, q, lit, opt).None?
    ensures r.None? ==> forall q :: from <= q <= |s| ==> MatchAt(s, q, lit, opt).None?
    decreases |s| - from
  {
    var here := MatchAt(s, from, lit, opt);
    if here.Some? then Some((from, here.value))
    else if from == |s| then None
    else
      var r := FirstMatch(s, lit, opt, from + 1);
      assert r.None? ==> forall q :: from + 1 <= q <= |s| ==> MatchAt(s, q, lit, opt).None?;
      r
  }

  /**
   * The price found in a line: the text of the leftmost match, which is a
   * piece of the line made of the literal, at most one `opt` and then
   * digits, or the placeholder when nothing matches anywhere.
   */
  function PriceIn(line: string, lit: string, opt: char): (price: string)
    ensures price == NO_PRICE <==> forall q :: 0 <= q <= |line| ==> MatchAt(line, q, lit, opt).None?
    ensures price != NO_PRICE ==> Contains(line, price) && |price| > |lit| && lit <= price
    ensures price != NO_PRICE ==> IsDigit(price[|lit|]) || price[|lit|] == opt
    ensures price != NO_PRICE ==> forall k :: |lit| < k < |price| ==> IsDigit(price[k])
    ensures price != NO_PRICE ==> IsDigit(price[|price| - 1])
    ensures price != NO_PRICE ==>
      exists p :: 0 <= p <= |line| && MatchAt(line, p, lit, opt).Some?
        && price == line[p..MatchAt(line, p, lit, opt).value]
        && forall q :: 0 <= q < p ==> MatchAt(line, q, lit, opt).None?
  {
    match FirstMatch(line, lit, opt, 0)
    case Some((p, e)) =>
      MatchText(line, p, e, lit, opt);
      line[p..e]
    case None => NO_PRICE
  }

  /** The text of a match is the literal, at most one `opt`, then digits. */
  lemma MatchText(s: string, p: nat, e: nat, lit: string, opt: char)
    requires p <= |s| && MatchAt(s, p, lit, opt) == Some(e)
    ensures p + |lit| < e <= |s|
    ensures Contains(s, s[p..e]) && lit <= s[p..e]
    ensures IsDigit(s[p..e][|lit|]) || s[p..e][|lit|] == opt
    ensures forall k :: |lit| < k < e - p ==> IsDigit(s[p..e][k])
    ensures IsDigit(s[p..e][e - p - 1])
  {
    var q := p + |lit|;
    assert lit <= s[p..];
    assert IsDigit(s[q]) || s[q] == opt;
    assert forall k :: q < k < e ==> IsDigit(s[k]);
    assert IsDigit(s[e - 1]);
    ContainsSlice(s, p, e);
    SliceText(s, p, e, lit, opt);
  }

  /** The slice facts behind MatchText, stated on the characters of the line. */
  lemma SliceText(s: string, p: nat, e: nat, lit: string, opt: char)
    requires p + |lit| < e <= |s| && lit <= s[p..]
    requires IsDigit(s[p + |lit|]) || s[p + |lit|] == opt
    requires forall k :: p + |lit| < k < e ==> IsDigit(s[k])
    requires IsDigit(s[e - 1])
    ensures lit <= s[p..e]
    ensures IsDigit(s[p..e][|lit|]) || s[p..e][|lit|] == opt
    ensures forall k :: |lit| < k < e - p ==> IsDigit(s[p..e][k])
    ensures IsDigit(s[p..e][e - p - 1])
  {
    var m := s[p..e];
    assert s[p..][..|lit|] == s[p..p + |lit|] == m[..|lit|];
    forall k | |lit| < k < e - p
      ensures IsDigit(m[k])
    {
      assert m[k] == s[p + k];
    }
  }

  /**
   * The price pattern: an optional currency symbol, then digits.  A line
   * has no price exactly when it holds no digit.
   */
  function FallbackPrice(line: string, symbol: char): (price: string)
    ensures price == NO_PRICE <==> forall k :: 0 <= k < |line| ==> !IsDigit(line[k])
  {
    assert forall k :: 0 <= k < |line| && IsDigit(line[k]) ==> MatchAt(line, k, "", symbol).Some?;
    PriceIn(line, "", symbol)
  }

  /**
   * Which text the fallback pattern takes: the first run of digits in the
   * line, with the currency symbol in front of it when the symbol stands
   * immediately before that run.
   */
  lemma {:induction false} FallbackPriceIsFirstRun(line: string, symbol: char, k: nat)
    requires k < |line| && IsDigit(line[k])
    requires forall j :: 0 <= j < k ==> !IsDigit(line[j])
    ensures FallbackPrice(line, symbol) ==
      if k > 0 && line[k - 1] == symbol then line[k - 1..DigitRunEnd(line, k)]
      else line[k..DigitRunEnd(line, k)]
  {
    var e := DigitRunEnd(line, k);
    assert k + 1 <= |line| && DigitRunEnd(line, k) == DigitRunEnd(line, k + 1);
    forall q | 0 <= q < k - 1
      ensures MatchAt(line, q, "", symbol).None?
    {
      assert !IsDigit(line[q]) && !IsDigit(line[q + 1]);
    }
    assert MatchAt(line, k, "", symbol) == Some(e);
    var start := if k > 0 && line[k - 1] == symbol then k - 1 else k;
    if k > 0 {
      if line[k - 1] == symbol {
        assert MatchAt(line, k - 1, "", symbol) == Some(e);
      } else {
        assert !IsDigit(line[k - 1]);
        assert MatchAt(line, k - 1, "", symbol).None?;
      }
    }
    var price := PriceIn(line, "", symbol);
    assert price != NO_PRICE;
    var p :| 0 <= p <= |line| && MatchAt(line, p, "", symbol).Some?
      && price == line[p..MatchAt(line, p, "", symbol).value]
      && forall q :: 0 <= q < p ==> MatchAt(line, q, "", symbol).None?;
    assert p == start;
  }

  /** The service made from one fallback line. */
  function LineService(line: string, symbol: char, id: string): (r: Service)
    ensures r.name != "" && IsTrimmed(r.name) && '-' !in r.name && ':' !in r.name
  {
    Service(id, LineName(line), EXTRACTED_DESCRIPTION, FallbackPrice(line, symbol), None)
  }

  /** One service per line, in order, the k-th with id `ids(k)`. */
  function TextLineServices(lines: seq<string>, symbol: char, ids: nat -> string): (r: seq<Service>)
    ensures |r| == |lines|
    ensures forall k :: 0 <= k < |r| ==> r[k] == LineService(lines[k], symbol, ids(k))
  {
    seq(|lines|, k requires 0 <= k < |lines| => LineService(lines[k], symbol, ids(k)))
  }

  /** The services of a table-less document: one per non-blank line, for the first five. */
  function TextServices(text: string, symbol: char, ids: nat -> string): (r: seq<Service>)
    ensures |r| <= MAX_TEXT_SERVICES && |r| <= |NonBlankLines(text)|
    ensures forall k :: 0 <= k < |r| ==> r[k].name != "" && IsTrimmed(r[k].name) && '-' !in r[k].name && ':' !in r[k].name
  {
    TextLineServices(Take(NonBlankLines(text), MAX_TEXT_SERVICES), symbol, ids)
  }

  /**
   * The fallback gives min(5, non-blank lines) services; the k-th is named
   * from the k-th non-blank line, has the fixed description and no
   * duration.
   */
  lemma TextServicesShape(text: string, symbol: char, ids: nat -> string)
    ensures var n := |NonBlankLines(text)|;
      |TextServices(text, symbol, ids)| == if n < MAX_TEXT_SERVICES then n else MAX_TEXT_SERVICES
    ensures forall k :: 0 <= k < |TextServices(text, symbol, ids)| ==>
      var s := TextServices(text, symbol, ids)[k];
      var line := NonBlankLines(text)[k];
      && s.id == ids(k)
      && s.name == LineName(line)
      && s.description == EXTRACTED_DESCRIPTION
      && s.price == FallbackPrice(line, symbol)
      && s.duration.None?
  {
  }

  // ---------------------------------------------------------------------
  // The import
  // ---------------------------------------------------------------------

  /**
   * The importer as a whole: the table path when there is a table, the
   * text path otherwise, and one fixed error for a document that could not
   * be read or converted.
   */
  function ImportServices(file: Conversion, symbol: char, ids: nat -> string): (r: Result<seq<Service>, string>)
    ensures r.Failure? <==> file.Unreadable?
    ensures r.Failure? ==> r.error == IMPORT_ERROR
    ensures file.Converted? && file.doc.Table? ==> |r.value| <= |file.doc.rows| - StartIndex(file.doc.rows)
    ensures file.Converted? && file.doc.PlainText? ==> |r.value| <= MAX_TEXT_SERVICES
  {
    match file
    case Unreadable => Failure(IMPORT_ERROR)
    case Converted(Table(rows)) =>
      TableServicesShape(rows, ids);
      Success(TableServices(rows, ids))
    case Converted(PlainText(text)) => Success(TextServices(text, symbol, ids))
  }

  /** The importer's entry point, running the table loop when there is a table. */
  method ParseDocxServices(file: Conversion, symbol: char, ids: nat -> string) returns (r: Result<seq<Service>, string>)
    ensures r == ImportServices(file, symbol, ids)
  {
    match file
    case Unreadable =>
      r := Failure(IMPORT_ERROR);
    case Converted(Table(rows)) =>
      var services := ParseTable(rows, ids);
      r := Success(services);
    case Converted(PlainText(text)) =>
      r := Success(TextServices(text, symbol, ids));
  }

  // ---------------------------------------------------------------------
  // The price pattern as the source file has it
  // ---------------------------------------------------------------------

  /**
   * The source file holds the rupee sign's UTF-8 bytes read as
   * Windows-1252: the literal "\U{E2}\U{201A}" followed by an optional
   * '\U{B9}', so the pattern demands those two characters before the digits.
   */
  const GARBLED_LITERAL := "\U{E2}\U{201A}"
  const GARBLED_OPTIONAL := '\U{B9}'

  /** As written, every price found begins with the two garbled characters. */
  function FallbackPriceAsWritten(line: string): (price: string)
    ensures price != NO_PRICE ==> GARBLED_LITERAL <= price && Contains(line, price)
  {
    PriceIn(line, GARBLED_LITERAL, GARBLED_OPTIONAL)
  }

  /** As written, a line without the character '\U{E2}' never yields a price. */
  lemma AsWrittenNeedsGarbledPrefix(line: string)
    requires '\U{E2}' !in line
    ensures FallbackPriceAsWritten(line) == NO_PRICE
  {
    forall q | 0 <= q <= |line|
      ensures !(GARBLED_LITERAL <= line[q..])
    {
      if q < |line| {
        assert line[q] in line;
        assert line[q..][0] == line[q];
      }
    }
  }

  /** "Haircut 300" and "Haircut \U{20B9}300" have no price as written, and do have one as intended. */
  lemma AsWrittenMissesPrices(symbol: char)
    ensures FallbackPriceAsWritten("Haircut 300") == NO_PRICE
    ensures FallbackPrice("Haircut 300", symbol) != NO_PRICE
    ensures FallbackPriceAsWritten("Haircut \U{20B9}300") == NO_PRICE
    ensures FallbackPrice("Haircut \U{20B9}300", symbol) != NO_PRICE
  {
    AsWrittenNeedsGarbledPrefix("Haircut 300");
    assert IsDigit("Haircut 300"[8]);
    AsWrittenNeedsGarbledPrefix("Haircut \U{20B9}300");
    assert IsDigit("Haircut \U{20B9}300"[9]);
  }
}

=== FILE: seqs.dfy ===
/**
 * The collection built-ins the application relies on.  Array.prototype.filter
 * is used in three places: dropping short table rows and blank text lines
 * while importing a catalog, and picking today's bookings for the
 * assistant.  `slice(0, n)` keeps the first lines of a text, and an
 * index-aware map builds the imported services.  Each is defined once
 * here, with the facts its callers rely on.
 */
module Seqs {

  /** The elements of `s` that satisfy `p`, in their original order. */
  function Filter<T>(s: seq<T>, p: T -> bool): (r: seq<T>)
    ensures |r| <= |s|
    ensures forall i :: 0 <= i < |r| ==> p(r[i])
  {
    if s == [] then []
    else if p(s[0]) then [s[0]] + Filter(s[1..], p)
    else Filter(s[1..], p)
  }

  /** Filtering one more element at the end extends the result by at most that element. */
  lemma {:induction false} FilterSnoc<T>(s: seq<T>, x: T, p: T -> bool)
    ensures Filter(s + [x], p) == Filter(s, p) + (if p(x) then [x] else [])
  {
    if s == [] {
      assert s + [x] == [x];
    } else {
      assert (s + [x])[1..] == s[1..] + [x];
      FilterSnoc(s[1..], x, p);
    }
  }

  /** Filtering distributes over concatenation. */
  lemma {:induction false} FilterConcat<T>(s: seq<T>, t: seq<T>, p: T -> bool)
    ensures Filter(s + t, p) == Filter(s, p) + Filter(t, p)
  {
    if s == [] {
      assert s + t == t;
    } else {
      assert (s + t)[1..] == s[1..] + t;
      FilterConcat(s[1..], t, p);
    }
  }

  /** An element survives the filter exactly when it occurs in the input and satisfies `p`. */
  lemma {:induction false} FilterMembership<T>(s: seq<T>, p: T -> bool, x: T)
    ensures x in Filter(s, p) <==> x in s && p(x)
  {
    if s != [] {
      FilterMembership(s[1..], p, x);
      assert s == [s[0]] + s[1..];
    }
  }

  /** Removing an element that fails `p` does not change the result. */
  lemma FilterSkip<T>(s: seq<T>, k: nat, p: T -> bool)
    requires k < |s| && !p(s[k])
    ensures Filter(s[..k] + s[k + 1..], p) == Filter(s, p)
  {
    var before, rest, after := s[..k], s[k..], s[k + 1..];
    assert s == before + rest;
    assert rest[0] == s[k] && rest[1..] == after;
    assert Filter(rest, p) == Filter(after, p);
    FilterConcat(before, rest, p);
    FilterConcat(before, after, p);
  }

  /** When every element satisfies `p`, nothing is dropped. */
  lemma {:induction false} FilterAll<T>(s: seq<T>, p: T -> bool)
    requires forall i :: 0 <= i < |s| ==> p(s[i])
    ensures Filter(s, p) == s
  {
    if s != [] {
      FilterAll(s[1..], p);
    }
  }

  /** `f` applied to every element and its index, in order. */
  function MapIndexed<A, B>(xs: seq<A>, f: (A, nat) --> B): (r: seq<B>)
    requires forall i :: 0 <= i < |xs| ==> f.requires(xs[i], i)
    ensures |r| == |xs|
    ensures forall i :: 0 <= i < |xs| ==> r[i] == f(xs[i], i)
  {
    seq(|xs|, i requires 0 <= i < |xs| => f(xs[i], i))
  }

  /** Mapping one more element at the end appends its image. */
  lemma MapIndexedSnoc<A, B>(xs: seq<A>, x: A, f: (A, nat) --> B)
    requires forall i :: 0 <= i < |xs| ==> f.requires(xs[i], i)
    requires f.requires(x, |xs|)
    ensures MapIndexed(xs + [x], f) == MapIndexed(xs, f) + [f(x, |xs|)]
  {
    var longer := xs + [x];
    assert forall i :: 0 <= i < |xs| ==> longer[i] == xs[i];
  }

  /** The first `n` elements, as `Array.prototype.slice(0, n)` gives them. */
  function Take<T>(s: seq<T>, n: nat): (r: seq<T>)
    ensures |r| == if |s| < n then |s| else n
    ensures forall i :: 0 <= i < |r| ==> r[i] == s[i]
  {
    if |s| <= n then s else s[..n]
  }
}

=== FILE: text.dfy ===
/**
 * The JavaScript string built-ins the application relies on, written out:
 * `trim`, ASCII `toLowerCase`, `includes`, `split` on one character, `join`,
 * `toString` of a non-negative integer and `padStart(2, '0')`.
 */
module Text {

  /**
   * The characters `String.prototype.trim` removes: the WhiteSpace and
   * LineTerminator code points of ECMAScript (section 12.2 and 12.3 of
   * ECMA-262), the Unicode space separators included.
   */
  predicate IsWhitespace(c: char) {
    c == ' ' || c == '\t' || c == '\n' || c == '\r' || c == '\U{B}' || c == '\U{C}'
    || c == '\U{A0}' || c == '\U{1680}' || ('\U{2000}' <= c <= '\U{200A}')
    || c == '\U{2028}' || c == '\U{2029}' || c == '\U{202F}' || c == '\U{205F}'
    || c == '\U{3000}' || c == '\U{FEFF}'
  }

  /** Every character of `s` is whitespace (the empty string included). */
  predicate IsBlank(s: string) {
    forall i :: 0 <= i < |s| ==> IsWhitespace(s[i])
  }

  /** How many whitespace characters `s` begins with. */
  function LeadingWhitespace(s: string): (n: nat)
    ensures n <= |s|
    ensures forall k :: 0 <= k < n ==> IsWhitespace(s[k])
    ensures n == |s| || !IsWhitespace(s[n])
  {
    if s != [] && IsWhitespace(s[0]) then
      var n := 1 + LeadingWhitespace(s[1..]);
      assert forall k :: 1 <= k < n ==> s[k] == s[1..][k - 1];
      n
    else 0
  }

  /** Where the whitespace `s` ends with begins. */
  function TrailingWhitespace(s: string): (e: nat)
    ensures e <= |s|
    ensures forall k :: e <= k < |s| ==> IsWhitespace(s[k])
    ensures e == 0 || !IsWhitespace(s[e - 1])
  {
    if s != [] && IsWhitespace(s[|s| - 1]) then
      var e := TrailingWhitespace(s[..|s| - 1]);
      assert forall k :: e <= k < |s| - 1 ==> s[k] == s[..|s| - 1][k];
      e
    else |s|
  }

  /**
   * `String.prototype.trim`: the result is the part of `s` between its
   * leading and its trailing whitespace, and neither begins nor ends with
   * whitespace itself.
   */
  function Trim(s: string): (r: string)
    ensures LeadingWhitespace(s) + |r| <= |s|
    ensures r == s[LeadingWhitespace(s)..LeadingWhitespace(s) + |r|]
    ensures forall k :: 0 <= k < LeadingWhitespace(s) ==> IsWhitespace(s[k])
    ensures forall k :: LeadingWhitespace(s) + |r| <= k < |s| ==> IsWhitespace(s[k])
    ensures r == [] || (!IsWhitespace(r[0]) && !IsWhitespace(r[|r| - 1]))
  {
    var i, e := LeadingWhitespace(s), TrailingWhitespace(s);
    if i == |s| then [] else s[i..e]
  }

  /** The trimmed string is empty exactly when the input is blank. */
  lemma TrimEmptyIffBlank(s: string)
    ensures Trim(s) == [] <==> IsBlank(s)
  {
    var r := Trim(s);
    if r != [] {
      assert s[LeadingWhitespace(s)] == r[0];
    }
  }

  /** A string that Trim leaves as it is. */
  predicate IsTrimmed(s: string) {
    s == [] || (!IsWhitespace(s[0]) && !IsWhitespace(s[|s| - 1]))
  }

  /** Trim changes nothing in a string without surrounding whitespace. */
  lemma TrimOfTrimmed(s: string)
    requires IsTrimmed(s)
    ensures Trim(s) == s
  {
    if s != [] {
      assert LeadingWhitespace(s) == 0;
      assert TrailingWhitespace(s) == |s|;
    }
  }

  /** Trim is idempotent. */
  lemma TrimIdempotent(s: string)
    ensures Trim(Trim(s)) == Trim(s)
  {
    TrimOfTrimmed(Trim(s));
  }

  /** ASCII lower-casing of one character. */
  function ToLowerChar(c: char): char {
    if 'A' <= c <= 'Z' then (c as int + 32) as char else c
  }

  /** `toLowerCase`, restricted to the ASCII letters. */
  function ToLowerAscii(s: string): (r: string)
    ensures |r| == |s|
    ensures forall i :: 0 <= i < |s| ==> r[i] == ToLowerChar(s[i])
  {
    seq(|s|, i requires 0 <= i < |s| => ToLowerChar(s[i]))
  }

  /** `String.prototype.includes`: `sub` occurs in `s` at some position. */
  predicate Contains(s: string, sub: string)
    ensures sub <= s ==> Contains(s, sub)
    ensures Contains(s, sub) ==> |sub| <= |s|
    decreases |s|
  {
    sub <= s || (s != [] && Contains(s[1..], sub))
  }

  /** `sub` occurs in `s` starting at index `i`. */
  predicate OccursAt(s: string, sub: string, i: nat) {
    i + |sub| <= |s| && s[i..i + |sub|] == sub
  }

  /** Containment means an occurrence at some index of `s`. */
  lemma {:induction false} ContainsIffOccurs(s: string, sub: string)
    ensures Contains(s, sub) <==> exists i: nat :: OccursAt(s, sub, i)
    decreases |s|
  {
    if sub <= s {
      assert OccursAt(s, sub, 0);
    } else if s == [] {
      forall i: nat
        ensures !OccursAt(s, sub, i)
      {
        assert |s| == 0;
      }
    } else {
      ContainsIffOccurs(s[1..], sub);
      if Contains(s, sub) {
        var i: nat :| OccursAt(s[1..], sub, i);
        assert s[i + 1..i + 1 + |sub|] == s[1..][i..i + |sub|];
        assert OccursAt(s, sub, i + 1);
      } else {
        forall i: nat
          ensures !OccursAt(s, sub, i)
        {
          if i == 0 {
          } else if i + |sub| <= |s| {
            var here, there := s[i..i + |sub|], s[1..][i - 1..i - 1 + |sub|];
            forall k | 0 <= k < |sub|
              ensures here[k] == there[k]
            {
              assert here[k] == s[i + k] && there[k] == s[1..][i - 1 + k];
            }
            assert here == there;
            assert !OccursAt(s[1..], sub, i - 1);
          }
        }
      }
    }
  }

  /** Whatever occurs in `x` occurs in `x` followed by anything. */
  lemma {:induction false} ContainsBefore(x: string, c: string, sub: string)
    requires Contains(x, sub)
    ensures Contains(x + c, sub)
  {
    if sub <= x {
      assert (x + c)[..|sub|] == x[..|sub|];
    } else {
      assert (x + c)[1..] == x[1..] + c;
      ContainsBefore(x[1..], c, sub);
    }
  }

  /** Whatever occurs in `t` occurs in anything followed by `t`. */
  lemma {:induction false} ContainsAfter(a: string, t: string, sub: string)
    requires Contains(t, sub)
    ensures Contains(a + t, sub)
  {
    if a == [] {
      assert a + t == t;
    } else {
      assert (a + t)[1..] == a[1..] + t;
      ContainsAfter(a[1..], t, sub);
    }
  }

  /** Whatever occurs in a part of a concatenation occurs in the whole. */
  lemma ContainsWithin(a: string, x: string, c: string, sub: string)
    requires Contains(x, sub)
    ensures Contains(a + x + c, sub)
  {
    ContainsBefore(x, c, sub);
    ContainsAfter(a, x + c, sub);
    assert a + x + c == a + (x + c);
  }

  /** Containment is transitive. */
  lemma {:induction false} ContainsTransitive(s: string, m: string, sub: string)
    requires Contains(s, m) && Contains(m, sub)
    ensures Contains(s, sub)
  {
    if m <= s {
      ContainsBefore(m, s[|m|..], sub);
      assert m + s[|m|..] == s;
    } else {
      ContainsTransitive(s[1..], m, sub);
      ContainsAfter([s[0]], s[1..], sub);
      assert [s[0]] + s[1..] == s;
    }
  }

  /** Every slice of a string occurs in it. */
  lemma ContainsSlice(s: string, p: nat, e: nat)
    requires p <= e <= |s|
    ensures Contains(s, s[p..e])
  {
    assert s == s[..p] + s[p..];
    assert s[p..e] <= s[p..];
    ContainsAfter(s[..p], s[p..], s[p..e]);
  }

  /** The middle part of a concatenation occurs in it. */
  lemma ContainsMiddle(a: string, b: string, c: string)
    ensures Contains(a + b + c, b)
  {
    assert b <= b;
    ContainsWithin(a, b, c, b);
  }

  /**
   * `parts.join(sep)`: the parts with `sep` between neighbours; no parts
   * give the empty string.
   */
  function Join(parts: seq<string>, sep: string): (r: string)
    ensures parts == [] ==> r == ""
    ensures parts != [] ==> parts[0] <= r
  {
    if |parts| == 0 then ""
    else if |parts| == 1 then parts[0]
    else
      var r := parts[0] + sep + Join(parts[1..], sep);
      assert r[..|parts[0]|] == parts[0];
      r
  }

  /** Every part occurs in the join. */
  lemma {:induction false} JoinContainsPart(parts: seq<string>, sep: string, i: nat)
    requires i < |parts|
    ensures Contains(Join(parts, sep), parts[i])
  {
    if i == 0 {
      assert parts[0] <= Join(parts, sep);
    } else {
      JoinContainsPart(parts[1..], sep, i - 1);
      ContainsAfter(parts[0] + sep, Join(parts[1..], sep), parts[i]);
      assert parts[0] + sep + Join(parts[1..], sep) == Join(parts, sep);
    }
  }

  /**
   * `s.split(c)` for a one-character separator: the pieces between
   * occurrences of `c`, empty pieces kept, so there is always at least one.
   */
  function Split(s: string, c: char): (r: seq<string>)
    ensures |r| >= 1
    ensures forall i :: 0 <= i < |r| ==> c !in r[i]
  {
    if s == [] then [[]]
    else
      var rest := Split(s[1..], c);
      if s[0] == c then [[]] + rest
      else [[s[0]] + rest[0]] + rest[1..]
  }

  lemma JoinCons(p: string, rest: seq<string>, sep: string)
    requires |rest| >= 1
    ensures Join([p] + rest, sep) == p + sep + Join(rest, sep)
  {
    assert ([p] + rest)[1..] == rest;
  }

  lemma {:induction false} JoinPrepend(x: string, parts: seq<string>, sep: string)
    requires |parts| >= 1
    ensures Join([x + parts[0]] + parts[1..], sep) == x + Join(parts, sep)
  {
    if |parts| == 1 {
      assert [x + parts[0]] + parts[1..] == [x + parts[0]];
    } else {
      JoinCons(x + parts[0], parts[1..], sep);
      JoinCons(parts[0], parts[1..], sep);
      assert parts == [parts[0]] + parts[1..];
    }
  }

  /** Joining the pieces of a split with the separator restores the string. */
  lemma {:induction false} JoinSplit(s: string, c: char)
    ensures Join(Split(s, c), [c]) == s
  {
    if s != [] {
      var rest := Split(s[1..], c);
      JoinSplit(s[1..], c);
      if s[0] == c {
        JoinCons([], rest, [c]);
      } else {
        JoinPrepend([s[0]], rest, [c]);
      }
    }
  }

  /** Splitting a piece without the separator that is followed by the separator. */
  lemma {:induction false} SplitPiece(p: string, c: char, tail: string)
    requires c !in p
    ensures Split(p + [c] + tail, c) == [p] + Split(tail, c)
  {
    if p == [] {
      assert p + [c] + tail == [c] + tail;
      assert ([c] + tail)[1..] == tail;
    } else {
      assert (p + [c] + tail)[1..] == p[1..] + [c] + tail;
      SplitPiece(p[1..], c, tail);
      assert [p[0]] + p[1..] == p;
    }
  }

  /** A string without the separator splits into itself alone. */
  lemma {:induction false} SplitNoSeparator(p: string, c: char)
    requires c !in p
    ensures Split(p, c) == [p]
  {
    if p != [] {
      SplitNoSeparator(p[1..], c);
      assert [p[0]] + p[1..] == p;
    }
  }

  /**
   * The other direction of the round trip: pieces free of the separator
   * come back unchanged from splitting their join.
   */
  lemma {:induction false} SplitJoin(parts: seq<string>, c: char)
    requires |parts| >= 1
    requires forall i :: 0 <= i < |parts| ==> c !in parts[i]
    ensures Split(Join(parts, [c]), c) == parts
  {
    if |parts| == 1 {
      SplitNoSeparator(parts[0], c);
    } else {
      JoinCons(parts[0], parts[1..], [c]);
      SplitPiece(parts[0], c, Join(parts[1..], [c]));
      SplitJoin(parts[1..], c);
      assert parts == [parts[0]] + parts[1..];
    }
  }

  /** The character of a decimal digit. */
  function DigitChar(d: nat): (c: char)
    requires d < 10
    ensures '0' <= c <= '9'
  {
    ('0' as int + d) as char
  }

  predicate IsDigit(c: char) {
    '0' <= c <= '9'
  }

  /** `Number.prototype.toString()` of a non-negative integer: its decimal digits. */
  function NatToString(n: nat): (r: string)
    ensures |r| >= 1
    ensures forall i :: 0 <= i < |r| ==> IsDigit(r[i])
    ensures (n < 10) == (|r| == 1)
  {
    if n < 10 then [DigitChar(n)] else NatToString(n / 10) + [DigitChar(n % 10)]
  }

  /** The number a string of decimal digits denotes. */
  function DecimalValue(s: string): nat
    requires forall i :: 0 <= i < |s| ==> IsDigit(s[i])
  {
    if |s| == 0 then 0
    else
      var last := s[|s| - 1];
      assert IsDigit(last);
      DecimalValue(s[..|s| - 1]) * 10 + (last as int - '0' as int)
  }

  /** The digits of a number read back as that number, with no leading zero. */
  lemma {:induction false} NatToStringValue(n: nat)
    ensures DecimalValue(NatToString(n)) == n
    ensures NatToString(n)[0] == '0' ==> n == 0
  {
    if n >= 10 {
      NatToStringValue(n / 10);
      var r := NatToString(n);
      assert r[..|r| - 1] == NatToString(n / 10);
      assert r[0] == NatToString(n / 10)[0];
    }
  }

  /** `n.toString().padStart(2, '0')`. */
  function Pad2(n: nat): (r: string)
    ensures |r| >= 2
    ensures n < 100 ==> r == [DigitChar(n / 10), DigitChar(n % 10)]
  {
    var digits := NatToString(n);
    assert 10 <= n < 100 ==> digits == NatToString(n / 10) + [DigitChar(n % 10)];
    if |digits| < 2 then "0" + digits else digits
  }
}

=== FILE: types.dfy ===
/**
 * The records the booking application passes around: services in the
 * catalog, appointments in the book, and the small failure-carrying
 * wrappers used for optional values and for operations that can fail.
 */
module Types {

  datatype Option<+T> = None | Some(value: T)

  datatype Result<+R, +E> = Success(value: R) | Failure(error: E)

  /** A bookable offering; `duration` is optional in the catalog. */
  datatype Service = Service(
    id: string,
    name: string,
    description: string,
    price: string,
    duration: Option<string>)

  /** One confirmed booking; `serviceName` is a snapshot taken at booking time. */
  datatype Appointment = Appointment(
    id: string,
    customerName: string,
    mobileNumber: string,
    serviceId: string,
    serviceName: string,
    date: string,
    time: string)
}
